=== FILE: README.md ===
# distlog in Dafny

distlog is a hierarchical, distributed logging library for Python. Inside a
process, `with task(...)`, `with to(...)` and `with import_task(...)` open
scopes (`Task`s). The scopes live on one process-wide stack (`LogContext`).
Every log record created while a scope is active gets a `context` dictionary.
That dictionary holds an ordering key `"<counter>@<id>"` and the scope's
bound data. The id is a slash-joined path of local ids.

A `ZmqHandler` normalises each record with a JSON or pickle `Serializer` and
publishes it as a two-part message `[topic, payload]`. The topic is three
letters: system (T/S/P), kind (L) and encoding (J/P). The `distlogd` daemon
receives the messages. It picks the decoder from the third letter of the topic
and hands every decoded record to each registered plugin that matches it.

The model is functional state-passing. The stack is a `seq<Task>` of immutable
records. Each operation returns the new stack, task, registry or handler.

| file | module | models |
|---|---|---|
| common.dfy | Common | `Option`/`Result`, argument values, `str(int)`, `'/'.join` |
| context.dfy | Context | distlog/logger/context.py: `Task`, `LogContext`, `task`, `to`, `import_task`, `LogRecord.context` |
| scopes.dfy | Scopes | the `with` statement over tasks: enter, body, exit, exceptions |
| formatters.dfy | Formatters | distlog/logger/formatters.py: `_extract_record`, `encoding`, `format` |
| handler.dfy | Handler | distlog/logger/handler.py: constructor check, `set_topic`, `setFormatter`, `emit` |
| plugins.dfy | Plugins | distlogd/plugins/__init__.py: registry, locations, loading, `handle` |
| daemon.dfy | Daemon | distlogd/main.py: decoder selection and the receive/dispatch/count loop |

Key modelling choices:

- **Parent links.** A task's `_parent` reference is stored as `ancestors`: the
  local ids of the parent's chain, from the root down to the parent. An empty
  chain means the parent is None. `Context.WellLinked` states that parent
  links mirror stack adjacency. Push, pop, context reads, `to()` and every
  statement of a scope program preserve it.
- **Two readings.** Where the code and its evident intent differ (see
  Findings), both are modelled. `Context.Code` selects the reading of
  `get_foreign_task` and `import_task`. The scope interpreter takes it as a
  parameter, so every scope lemma holds under both.
- **Scope programs.** A `with` body is a list of statements. A `bind`,
  `success` or `get_foreign_task` call names the task it acts on by its
  position on the stack. That may be the innermost `with` variable or any
  outer one.
- **Python truthiness.** `id` falls back to the bare `_id` when the parent's id
  is falsy.
- **Enabled levels.** A logging call produces a record only when its level
  reaches the effective level of the logger it goes through. Only then is a
  context read and the counter bumped. A `with` statement's opening and
  closing records go through the root logger (`logging.info`,
  `logging.exception`), so the scope interpreter takes the root level; each
  logging call in a body carries its own logger's level.
- **Environment as parameters.** The handler's socket and the daemon's clock
  are not modelled. Whether `send_multipart` succeeds is a parameter. The
  daemon loop runs over the list of messages received. A fresh `uuid4()` is a
  parameter. So are `formatTime`, `os.uname().nodename` and
  `formatException` (the `Env` record), the result of importing and
  initialising a plugin, and the behaviour of a plugin's `match` and `handle`.

## Model

| member | source | states |
|---|---|---|
| `Context.IdFollowsParent` | distlog/logger/context.py:99-120 | `id` is `parent + "/" + _id` when the parent's id is truthy; otherwise it is the bare `_id` |
| `Context.IdentityIsJoinedPath` | distlog/logger/context.py:105-108 | when no local id is falsy, a task's id is the local ids of its chain joined by "/" |
| `Context.IdIsJoinedLocalIds` | distlog/logger/context.py:99-120 | on a consistently linked stack with no falsy local id, each task's id is the local ids from the bottom up to it, joined by "/" |
| `Context.Push` | distlog/logger/context.py:249-257 | appends the task and leaves the tasks below unchanged; the new task's parent is the previous top's id, or None on an empty stack; the parent-link invariant is preserved |
| `Context.Pop` | distlog/logger/context.py:259-269 | fails exactly on an empty stack; otherwise removes and returns the top task with its parent cleared; the invariant is preserved |
| `Context.TopLevelTask` | distlog/logger/context.py:305-324 | `task()` has no parent, its id is the uuid, and its counters start at zero |
| `Context.TopTracksPushPop` | distlog/logger/context.py:271-280 | `top` is None exactly for an empty stack; after a push it is the pushed task; after the matching pop it is the previous top |
| `Context.PushThenPop` | distlog/logger/context.py:249-269 | a pop right after a push returns the task, detached, and the stack as it was |
| `Context.PopNFailsIffTooMany` | distlog/logger/context.py:267 | popping n times fails exactly when n exceeds the depth; otherwise it leaves the bottom depth-n tasks |
| `Context.PushAllThenPopAll` | distlog/logger/context.py:249-269 | matched pushes and pops are LIFO: the tasks come back newest first and the stack is restored |
| `Context.KeyOfInjective` | distlog/logger/context.py:136 | two ordering keys are equal only if their counters and id texts are equal |
| `Context.ContextOf` | distlog/logger/context.py:122-140 | a context read bumps the counter by exactly one; the dictionary has the bound keys plus "key"; bound values win |
| `Context.ConsecutiveContextsDiffer` | distlog/logger/context.py:135-140 | two consecutive reads give distinct keys and identical bound data |
| `Context.OpsKeepIdAndCount` | distlog/logger/context.py:122-194 | between two records, bind, success, child numbering and logging leave a task's id alone and move its record counter once per context read |
| `Context.ReadsNeverRepeatAKey` | distlog/logger/context.py:132-140 | a record's ordering key differs from that of every later record of the task, whatever happens in between, unless "key" is bound |
| `Context.BoundKeyOverridesOrderingKey` | distlog/logger/context.py:139 | a bound "key" entry replaces the ordering key |
| `Context.RecordContext` | distlog/logger/context.py:46 | a new record's context is None exactly when no task is active; otherwise it is the top's context, and only the top's counter moves |
| `Context.LogCall` | distlog/logger/context.py:41-46 | a logging call yields one record exactly when its level is enabled, carrying the current context; a disabled call changes nothing |
| `Context.Bind` | distlog/logger/context.py:171-180 | last-write-wins merge: new keys added, colliding keys overwritten, other keys and fields unchanged |
| `Context.BindShowsInContext` | distlog/logger/context.py:122-180 | after a bind, the context of every later record carries the bound value, whatever records, success messages and child numbers come between, as long as the key is not bound again |
| `Context.Success` | distlog/logger/context.py:182-194 | only `smsg` and `sargs` change |
| `Context.GetNextTask` | distlog/logger/context.py:142-153 | the child counter goes up by one and the new value is returned |
| `Context.To` | distlog/logger/context.py:327-351 | fails exactly when no task is active; otherwise it bumps the top's child counter, uses the new value as the child's local id, and keeps the invariant |
| `Context.GetForeignTaskAsWritten` | distlog/logger/context.py:168-169 | the exported token is built from `parent` ("None/<n>" for a top-level task), through the shared child counter |
| `Context.GetForeignTask` | distlog/logger/context.py:155-169 | corrected export: the child counter goes up by one and the token is the task's id, "/", then the new counter value |
| `Context.ImportTaskAsWritten` | distlog/logger/context.py:382 | the imported task's local id is the builtin `id` function, whatever the token |
| `Context.ImportTask` | distlog/logger/context.py:354-382 | corrected import: the token is the local id; the task is detached with fresh counters |
| `Context.Export` | distlog/logger/context.py:155-169 | under either reading, export bumps the child counter and the token is the reading's prefix (the id, or as written the parent), "/", then the new counter value |
| `Context.Import` | distlog/logger/context.py:354-382 | under either reading, the imported task is detached, with fresh counters and the given data; its local id is the token, or as written the builtin `id` |
| `Context.IssuedNumbers` | distlog/logger/context.py:142-169 | in a series of `to()` and `get_foreign_task()` calls on one task, the i-th draws number counter+i+1, and each exported token is the prefix, "/", then its number; under both readings |
| `Context.ChildNumbersDistinct` | distlog/logger/context.py:142-169 | the numbers drawn are pairwise distinct, and no exported token is the prefix followed by a local child's number; under both readings (with the corrected prefix, no token is a local child's id) |
| `Context.ExportAsWrittenRepeatsOwnId` | distlog/logger/context.py:142-169 | as written, the first export of a task opened with `to()` is its own id; the corrected token extends that id by "/1" |
| `Context.ExportThenImportExtendsPath` | distlog/logger/context.py:155-169 | with the corrected pair, a task continued elsewhere has the exporter's id, then "/", as a strict prefix of its id |
| `Context.ExportThenImportAsWrittenLosesPath` | distlog/logger/context.py:168-169 | as written, a top-level task exports "None/1" and the importer's id is "<built-in function id>" |
| `Context.Enter` | distlog/logger/context.py:196-208 | pushes first; the opening INFO record (when enabled) carries the pushed task's context |
| `Context.Exit` | distlog/logger/context.py:210-228 | with an exception: one ERROR record "FAILED " + msg with exception info; otherwise the success record if `smsg` is truthy, else none; always pops |
| `Scopes.Open` | distlog/logger/context.py:305-382 | `to()` is the only opener that can fail, and only with no active task; the new task is detached and carries the given message, arguments and data; an imported task's local id is the token, or as written the builtin `id`; no open task's bound data or success message changes |
| `Scopes.OnScope` | distlog/logger/context.py:155-194 | bind, success and get_foreign_task act on the named open task only; an export yields one token (the reading's prefix, "/", then the task's next child number) and bumps only that task's counter |
| `Scopes.RunStmt` | distlog/logger/context.py:196-228 | a statement keeps every open task (ids, links, non-decreasing counters); `raise` propagates; logging and task calls raise nothing; a logging call gives one record exactly when its level reaches its own logger's level |
| `Scopes.RunWith` | distlog/logger/context.py:206-228 | a failing opener changes nothing and raises; otherwise the stack afterwards holds the same tasks as right after opening, with non-decreasing counters |
| `Scopes.RunStmtFrame` | distlog/logger/context.py:171-228 | a task's bound data and success message change only through `bind`/`success` calls on that task; logging, scopes, exports and exceptions leave them alone |
| `Scopes.RunSeqFrame` | distlog/logger/context.py:171-228 | the same for a block of statements |
| `Scopes.RunSeq` | distlog/logger/context.py:206-227 | a block restores the stack depth on every way out, normal or raising |
| `Scopes.RunKeepsLinks` | distlog/logger/context.py:256-268 | running any program keeps parent links consistent with the stack |
| `Scopes.ToKeepsScopes` | distlog/logger/context.py:327-351 | with an active task, `to()` changes only the top's child counter and the new task has no parent link yet |
| `Scopes.WithUnfolds` | distlog/logger/context.py:196-228 | a `with` block whose task opened is enter, then the body, then exit with the body's exception; its records are the opening, the body's and the closing ones in that order |
| `Scopes.OpeningEvent` | distlog/logger/context.py:206-207 | with INFO enabled, entering logs exactly one INFO record with the task's message |
| `Scopes.ClosingEvent` | distlog/logger/context.py:223-228 | leaving a failed scope, or one with a success message, logs exactly one record (FAILED at ERROR, or the success message at INFO) and pops |
| `Scopes.WithLogsOpeningAndAtMostOneClosing` | distlog/logger/context.py:196-228 | any opened `with` logs one INFO record with its message, then the body's records, then a closing record exactly when the body raised ("FAILED", at ERROR) or left a success message; the exception propagates |
| `Scopes.FailingScopeLogsAndPropagates` | distlog/logger/context.py:223-228 | a raising body yields the opening record and one "FAILED" ERROR record; the stack is restored; the exception propagates |
| `Scopes.SuccessfulClose` | distlog/logger/context.py:210-228 | a scope whose body only called success() is popped with exactly one INFO record carrying the success message |
| `Scopes.SucceedingScopeLogsSuccess` | distlog/logger/context.py:225-227 | a body that calls success() yields the opening record and one INFO record with the success message |
| `Scopes.QuietRootKeepsBodyRecords` | distlog/logger/context.py:196-228 | with the root logger at WARNING, a `with` whose body logs at INFO through a DEBUG logger emits only the body's record: the INFO opening line is suppressed, the body's record is not |
| `Scopes.LoggingBody` | distlog/logger/context.py:41-46 | a body of one enabled logging call yields exactly that record, raises nothing and leaves the innermost task's settings alone |
| `Scopes.PlainScopeLogsOnlyOpening` | distlog/logger/context.py:206-227 | without success() or an exception, only the opening record is produced |
| `Scopes.ChildWithoutParentRaises` | distlog/logger/context.py:350 | `with to(...)` with no active task raises before anything is logged |
| `Formatters.InterpolateSucceedsIff` | distlog/logger/formatters.py:43 | `msg % args` succeeds exactly when the template is well formed and the arguments fit its conversions |
| `Formatters.Escape` | distlog/logger/formatters.py:43 | the escaped text contains no newline and is never shorter |
| `Formatters.EscapeIsIdentityIff` | distlog/logger/formatters.py:43 | escaping changes a string exactly when it contains a newline |
| `Formatters.EscapeIdempotent` | distlog/logger/formatters.py:43 | escaping twice is escaping once |
| `Formatters.Normalize` | distlog/logger/formatters.py:27-52 | fails exactly when interpolation fails; message escaped and newline-free; `exc_text` computed only when `exc_info` is set and `exc_text` is falsy; `exc_info` and `args` cleared; time and host stamped; all else unchanged |
| `Formatters.NormalizeTwiceUsesTemplate` | distlog/logger/formatters.py:43-51 | since `args` is cleared, normalising again yields the escaped template |
| `Formatters.SampleMessage` | tests/test_formatters.py:14-25 | 'hi there %s %d' % ('number', 1) is 'hi there number 1' |
| `Formatters.SampleRecordNormalizes` | tests/test_formatters.py:14-36 | the test record normalises with that message and keeps name, levelno, filename, module and lineno |
| `Formatters.EncodingTags` | distlog/logger/formatters.py:54-109 | 'J' for JSON and 'P' for pickle; the base class raises; a plain formatter has no tag |
| `Formatters.Format` | distlog/logger/formatters.py:60-100 | the JSON and pickle formatters carry the normalised record; for a record with a string `msg` and no `extra=` attributes, formatting fails exactly when interpolation fails or the serializer rejects a bound value, and in the second case the record is already normalised |
| `Handler.OccursInTopicSystem` | distlog/logger/handler.py:94 | `system in 'TSP'` holds exactly for "", "T", "S", "P", "TS", "SP" and "TSP" |
| `Handler.NewHandlerAsWritten` | distlog/logger/handler.py:83-95 | the written constructor accepts exactly those seven strings and starts with no formatter or topic |
| `Handler.NewHandler` | distlog/logger/handler.py:83-95 | corrected constructor: accepts exactly "T", "S" and "P" |
| `Handler.NewHandlerNarrowsAsWritten` | distlog/logger/handler.py:94 | the correction rejects exactly "", "TS", "SP" and "TSP" and agrees elsewhere |
| `Handler.SetTopic` | distlog/logger/handler.py:105-117 | fails exactly unless the encoding occurs in "JP"; the topic is the system, 'L', then the encoding |
| `Handler.SetFormatter` | distlog/logger/handler.py:130-136 | a non-serializer raises TypeError and changes nothing; the base class is attached but raises, keeping the topic; JSON/pickle set the topic from the tag |
| `Handler.TopicLayout` | distlog/logger/handler.py:113-117 | with the corrected constructor, the topic is three letters: system, 'L', and the formatter's tag |
| `Handler.DefaultJsonTopic` | tests/test_handler.py:20-41 | the default system with the JSON formatter publishes on "PLJ" |
| `Handler.EmptySystemTopicAsWritten` | distlog/logger/handler.py:94-117 | as written, system "" with the pickle formatter gives the two-letter topic "LP" |
| `Handler.Prepare` | distlog/logger/handler.py:122-127 | the guarded part of emit succeeds exactly when the message interpolates, the serializer accepts every bound value and a topic is set; each failure is reported with its reason |
| `Handler.EmitAsWritten` | distlog/logger/handler.py:119-128 | sends one frame exactly when that part succeeds and the send succeeds; a failed send raises out of emit |
| `Handler.Emit` | distlog/logger/handler.py:119-128 | corrected emit never raises; it sends exactly one `[topic, payload]` frame when the message interpolates, the bound values serialise, a topic is set and the send succeeds, else drops with the reason |
| `Handler.UnserializableValueIsDropped` | distlog/logger/handler.py:122-127 | a bound value `json.dumps` rejects makes both emits drop the record, already normalised, without sending |
| `Handler.EmitAgreesUnlessSendFails` | distlog/logger/handler.py:122-128 | the two emits differ exactly when the frame is ready and the send fails |
| `Handler.SendFailureEscapesAsWritten` | distlog/logger/handler.py:128 | a failed send raises from the written emit and is dropped by the corrected one |
| `Handler.FreshHandlerSendsNothing` | distlog/logger/handler.py:78-127 | before setFormatter the topic is None, so emit sends nothing |
| `Plugins.AddPlugin` | distlogd/plugins/__init__.py:25-29 | a non-plugin raises and changes nothing; otherwise the registry gains at most the plugin, at the end, and stays duplicate-free |
| `Plugins.AddPluginIdempotent` | distlogd/plugins/__init__.py:28-29 | adding a registered plugin again changes nothing |
| `Plugins.RegistrationOrder` | distlogd/plugins/__init__.py:25-29 | a registry built by additions lists each distinct plugin once, in first-registration order |
| `Plugins.AddLocation` | distlogd/plugins/__init__.py:18-23 | a list is concatenated and any other value appended; existing locations keep their order |
| `Plugins.AddLocationComposes` | distlogd/plugins/__init__.py:18-23 | adding two lists in turn is adding their concatenation; a single value is added like a one-element list |
| `Plugins.LoadPlugins` | distlogd/plugins/__init__.py:31-41 | loading fails exactly when some entry lacks "package" or "options" or its own initialisation fails; it stops at the first such entry and keeps earlier registrations; it logs `failed to load plugin "<package>"` for that entry when the entry names a package, and logs nothing when "package" is missing (the lookup sits before the `try`) |
| `Plugins.LoadCons` | distlogd/plugins/__init__.py:34-41 | an entry that loads, followed by others, gives the others' outcome from the registry it left, the failing position counted one further |
| `Plugins.LoadPluginsAppend` | distlogd/plugins/__init__.py:31-41 | when every entry of a list loads, loading it followed by a second list is loading the second list into the registry the first left: same registry, same log, failure at the same entry counted from the start |
| `Plugins.LoadFailureKeepsEarlier` | distlogd/plugins/__init__.py:34-41 | after a failure, the registry is what the entries before the failing one registered |
| `Plugins.LoadPluginsOrder` | distlogd/plugins/__init__.py:34-38 | a successful load registers exactly the objects the entries' initialisations returned, each distinct one once, in the order of its first entry |
| `Plugins.LoadConfig` | distlogd/plugins/__init__.py:43-46 | locations are added, then plugins loaded; on success, every previously registered plugin stays |
| `Plugins.LoadConfigSequence` | distlogd/plugins/__init__.py:18-46 | loading two configuration files in turn, the first loading fully, is loading one file listing both files' locations and then both files' plugin entries |
| `Plugins.Dispatch` | distlogd/plugins/__init__.py:48-51 | the dispatch raises exactly when some plugin's match or handle raises, and then at the first such plugin in registry order |
| `Plugins.DispatchCalls` | distlogd/plugins/__init__.py:48-51 | match is asked of every consulted plugin in registry order (all of them, or up to the raising one) and handle is called on exactly the consulted ones that match |
| `Plugins.HandledOnce` | distlogd/plugins/__init__.py:48-51 | with a duplicate-free registry, each matching plugin handles a message exactly once and no other plugin does |
| `Daemon.ThirdLetter` | distlogd/main.py:24 | `head[2:3]` is the third letter, or empty for a shorter topic |
| `Daemon.PathFor` | distlogd/main.py:24-27 | the pickle decoder is chosen exactly when the topic has a third letter 'P' |
| `Daemon.OnlyThirdLetterDecides` | distlogd/main.py:24 | topics with the same third letter take the same decoder |
| `Daemon.ShortTopicIsText` | distlogd/main.py:24-27 | a topic shorter than three letters takes the JSON path |
| `Daemon.Decode` | distlogd/main.py:24-27 | a body decodes exactly when the chosen decoder matches its format, giving back the record |
| `Daemon.Receive` | distlogd/main.py:23-27 | a message without exactly two parts fails to unpack; a pair is decoded by its topic's decoder |
| `Daemon.StepOn` | distlogd/main.py:23-31 | a message is counted exactly when its step raises nothing; a message that does not unpack or decode ends the step with that error and reaches no plugin |
| `Daemon.StepOnDispatches` | distlogd/main.py:23-31 | a message is counted exactly when it decodes and no plugin raises; a decoded record is handed to the registry once, with one dispatch's calls |
| `Daemon.ServeSpec` | distlogd/main.py:18-32 | the count never exceeds the messages and equals their number exactly when nothing raised |
| `Daemon.ServeCountedSucceeded` | distlogd/main.py:21-31 | every counted message was decoded and dispatched without an exception |
| `Daemon.ServeStopsAtFirstFailure` | distlogd/main.py:21-35 | when the loop ended early, the message right after the counted ones raised, with the exception the loop ended on |
| `Daemon.ServeDispatchesInOrder` | distlogd/main.py:22-29 | the records handed to the registry are the counted messages' records, in arrival order |
| `Daemon.Serve` | distlogd/main.py:18-32 | the loop computes exactly the specified count, dispatched records, plugin calls and exception |
| `Daemon.ServeCallsAll` | distlogd/main.py:22-31 | with no exception, the plugin calls are one full dispatch per decoded record, in arrival order |
| `Daemon.ServeDispatchesEachOnce` | distlogd/main.py:22-31 | with no exception, every message is dispatched once, in order, and the plugin calls are one full dispatch per message |
| `Daemon.ServeAsWritten` | distlogd/main.py:29 | as written, the first decodable message raises NameError; nothing is dispatched or counted |
| `Daemon.NameErrorLosesMessages` | distlogd/main.py:29-31 | a message lost to the NameError is counted and dispatched by the corrected loop |
| `Daemon.EmitThenReceive` | distlogd/main.py:23-27 | a corrected handler's JSON or pickle message, for a record whose bound values that formatter accepts, decodes back into the normalised record |
| `Daemon.EmptySystemMisroutes` | distlogd/main.py:24-27 | the written constructor's "" system with pickle gives topic "LP", which takes the JSON decoder and fails |

## Left out

- zmq sockets, contexts, `connect`/`bind`, `send_multipart` and `recv_multipart` are network I/O. The send outcome is a parameter and the received messages are a list.
- The time-bounded loop condition of distlogd/main.py and the throughput prints at its end are wall clock and output. The prints also divide floats.
- The bytes of `json.dumps`/`json.loads` and `pickle.dumps`/`pickle.loads` are foreign libraries. A payload is a document tagged by its encoding. A body in the wrong format never decodes, and a plain-text payload is treated as undecodable.
- `formatTime`, `os.uname().nodename` and `formatException` are foreign calls. They come in as the `Env` parameter.
- `uuid.uuid4()` is randomness. The uuid text is a parameter of `Context.TopLevelTask`.
- The JSON round trip's conversions (tuples to lists, etc.) are not modelled. The decoded record equals the normalised one.
- `Formatters.Format`: for a formatter that is not JSON or pickle (logging's default formatter, or the base `Serializer`), the payload is the interpolated message only. The `%(message)s` layout and the appended traceback are not modelled.
- Formatters.Format: a record's `msg` is a string and the record has no attributes added through `extra=`. In Python `msg` may be any object (`log.error(exc)`) and `extra=` attributes land in the serialised dictionary; either can make `json.dumps` or `pickle.dumps` reject the record, which the model does not represent. The serializer failure it does model is a rejected bound context value.
- `Formatters.Interpolate` covers `%s`, `%d`, `%i` and `%%`. Other conversions, flags, widths and mapping keys report `UnsupportedConversion`.
- Task objects are values. Pushing the same `Task` object twice, or sharing one between stacks, is not representable.
- `to()` with no active task raises AttributeError in Python; here it is `NoActiveTask`. `__exit__` on an empty stack raises IndexError from `list.pop`; here it is `PopFromEmptyList` and the stack is unchanged.
- `assert` statements are modelled as active. Under `python -O` they are skipped.
- `add_plugin` builds its message from `plugin.__name__`, which may itself raise AttributeError. Both are the single error `NotAPlugin`.
- `load_plugins` appends `_locations` to `sys.path` and imports with `importlib`; `load_config` reads YAML. These are interpreter plumbing. Importing plus `initialize` is a parameter: one result per entry, a candidate or a failure, so two entries naming the same package may yield different objects.
- The `LogRecord` factory installation, the logger-class override and the Python 2 branch of context.py are interpreter plumbing. A record's context is taken when a logging call produces a record.
- Scopes.RunStmt: the tasks below the top are not promised unchanged, because a statement may act on any open task. What stays is each task's identity, parent link and non-decreasing counters; `Scopes.RunStmtFrame` adds that bound data and success messages change only through calls naming the task.
- Scopes.RunWith: for the same reason, the stack after a `with` is not promised equal to the one its opener produced; it holds the same tasks with non-decreasing counters.
- Scopes.Scoped: a statement names an open task by its stack position. A `Task` object used after its `with` has exited (no longer on the stack) cannot be named.
- Plugins.Dispatch: a plugin's `match` and `handle` are functions of the plugin and the record. State a plugin carries from one message to the next is not modelled. The same `data` object goes to every plugin; a `handle` that changes it in place, and so changes what later plugins' `match` sees, is not modelled either.
- Common.Value: a bound value or `%` argument is a string, an integer or a non-numeric object (its `str()` text and whether `json.dumps` and `pickle.dumps` accept it). Floats and other numeric types are not modelled, so `%d` rejects every `Obj`.
- Plugins.LoadPlugins: `log.exception` also records the traceback; only the message is modelled.
- `Plugins.Dispatch` treats a plugin that raises in `handle` as having received the call. The raising plugin's effects are not modelled.
- Concurrency is not modelled; the stack and the registry are single-threaded.
- setup.py, genload.py, example.py, distlogd.py and distlog/__init__.py are packaging, scripts and re-exports.

## Findings

| source | as written | input that shows it | evidently intended | confidence | as-written member | corrected member |
|---|---|---|---|---|---|---|
| distlog/logger/context.py:168-169 | the exported token is formatted from `self.parent`, not `self.id` | a top-level task with local id "abc" exports "None/1" (`Context.ExportThenImportAsWrittenLosesPath`); a first child "P/1" exports "P/1", its own id (`Context.ExportAsWrittenRepeatsOwnId`) | the token is "<id>/<n>", so the importing side continues the exporter's path | not executed; high | `Context.GetForeignTaskAsWritten` | `Context.GetForeignTask` (`Context.ExportThenImportExtendsPath`) |
| distlog/logger/context.py:382 | `import_task` passes the builtin `id`, not the `_id` argument | any token: the continued task's id is "<built-in function id>" (`Context.ExportThenImportAsWrittenLosesPath`) | the token becomes the imported task's local id | not executed; high | `Context.ImportTaskAsWritten` | `Context.ImportTask` (`Context.ExportThenImportExtendsPath`) |
| distlog/logger/handler.py:94 | `system in 'TSP'` is a substring test and accepts "", "TS", "SP" and "TSP" | system "" with the pickle formatter publishes on "LP"; the daemon finds no third letter, picks JSON and cannot decode (`Daemon.EmptySystemMisroutes`) | the system is exactly one of T, S and P, so every topic is three letters | not executed; high | `Handler.NewHandlerAsWritten` | `Handler.NewHandler` (`Handler.TopicLayout`, `Daemon.EmitThenReceive`) |
| distlog/logger/handler.py:122-128 | `send_multipart` is outside the `try`, so a send failure escapes `emit` into the logging call | a formatted record whose send fails (`Handler.SendFailureEscapesAsWritten`) | like formatting failures, send failures go to `handleError` and the record is dropped | not executed; medium | `Handler.EmitAsWritten` | `Handler.Emit` |
| distlogd/main.py:29 | `plugins.handle(data)` uses a name the module never imports | the first message that decodes raises NameError, with nothing dispatched or counted (`Daemon.NameErrorLosesMessages`) | the decoded data goes to the plugin registry's dispatch | not executed; high | `Daemon.ServeAsWritten` | `Daemon.Serve` |

=== FILE: common.dfy ===
/** Shared vocabulary: failure-compatible wrappers, the Python values that travel
    as log arguments and context data, decimal rendering of integers (Python's
    `str(int)`) and slash-joined paths. */
module Common {

  /** Python's `None` or a value. */
  datatype Option<+T> = None | Some(value: T) {
    function GetOr(default: T): T {
      match this
      case Some(v) => v
      case None => default
    }
  }

  /** The result of a Python call that either returns or raises. */
  datatype Result<+T, +E> = Ok(value: T) | Err(error: E) {
    predicate IsFailure() {
      Err?
    }

    function PropagateFailure<U>(): Result<U, E>
      requires Err?
    {
      Err(error)
    }

    function Extract(): T
      requires Ok?
    {
      value
    }
  }

  /** A value passed as a `%` argument or as bound context data (`**kwargs`):
      a string, an integer, or any other object that is not a number, given by
      what `str()` makes of it and by whether `json.dumps` and `pickle.dumps`
      accept it (a `datetime` is picklable but not JSON-serialisable). */
  datatype Value =
    | Str(s: string)
    | Int(i: int)
    | Obj(text: string, jsonable: bool, picklable: bool)

  predicate IsDigit(c: char) {
    '0' <= c <= '9'
  }

  predicate AllDigits(s: string) {
    forall k :: 0 <= k < |s| ==> IsDigit(s[k])
  }

  function DigitChar(d: nat): (c: char)
    requires d < 10
    ensures IsDigit(c)
  {
    ('0' as int + d) as char
  }

  function DigitValue(c: char): (d: nat)
    requires IsDigit(c)
    ensures d < 10
  {
    c as int - '0' as int
  }

  /** Python's `str(n)` for a non-negative integer: most significant digit first. */
  function NatToString(n: nat): (s: string)
    ensures |s| > 0
    ensures AllDigits(s)
  {
    if n < 10 then [DigitChar(n)] else NatToString(n / 10) + [DigitChar(n % 10)]
  }

  /** Reads a string of decimal digits back as a number. */
  function ParseNat(s: string): nat
    requires AllDigits(s)
  {
    if |s| == 0 then 0 else ParseNat(s[..|s| - 1]) * 10 + DigitValue(s[|s| - 1])
  }

  /** Decimal rendering is a left inverse of parsing: no two counters share a rendering. */
  lemma {:induction false} ParseNatToString(n: nat)
    ensures ParseNat(NatToString(n)) == n
  {
    if n >= 10 {
      var s := NatToString(n);
      assert s[..|s| - 1] == NatToString(n / 10);
      ParseNatToString(n / 10);
    }
  }

  lemma NatToStringInjective(a: nat, b: nat)
    ensures NatToString(a) == NatToString(b) <==> a == b
  {
    if NatToString(a) == NatToString(b) {
      ParseNatToString(a);
      ParseNatToString(b);
    }
  }

  /** Python's `str(i)` for any integer. */
  function IntToString(i: int): (s: string)
    ensures |s| > 0
  {
    if i < 0 then "-" + NatToString(-i) else NatToString(i)
  }

  /** Python's `str(v)`, which is what a `%s` conversion inserts. */
  function ValueToString(v: Value): string {
    match v
    case Str(s) => s
    case Int(i) => IntToString(i)
    case Obj(text, _, _) => text
  }

  /** `'/'.join(parts)`. */
  function JoinPath(parts: seq<string>): string {
    if |parts| == 0 then ""
    else if |parts| == 1 then parts[0]
    else JoinPath(parts[..|parts| - 1]) + "/" + parts[|parts| - 1]
  }
}

=== FILE: context.dfy ===
/** Scoped logging context (distlog/logger/context.py).

    A `Task` is one scope; the process-wide `LogContext` is a LIFO stack of
    tasks. The Python `_parent` reference is represented by `ancestors`, the
    local ids of the parent's own chain from the root down to the parent
    (empty when `_parent` is None). While a task is on the stack its ancestors
    stay on the stack below it, so their ids cannot change and this snapshot
    always agrees with what following the references would compute. */
module Context {
  import opened Common

  /** Python logging levels used by the scope guard. */
  const DEBUG: nat := 10
  const INFO: nat := 20
  const WARNING: nat := 30
  const ERROR: nat := 40

  /** The `_id` a task is constructed with. */
  datatype LocalId =
    | Uuid(hex: string)       // task(): a fresh uuid4, supplied by the caller of the model
    | SeqNo(n: int)           // to(): the parent's child sequence number
    | Named(name: string)     // an id passed to the constructor directly
    | BuiltinIdFunction       // what import_task actually passes: the builtin `id`

  /** `str(_id)`. */
  function Render(l: LocalId): string {
    match l
    case Uuid(h) => h
    case SeqNo(n) => IntToString(n)
    case Named(s) => s
    case BuiltinIdFunction => "<built-in function id>"
  }

  /** Python truthiness of `_id`: uuid objects and functions are always true. */
  predicate LocalTruthy(l: LocalId) {
    match l
    case Uuid(_) => true
    case SeqNo(n) => n != 0
    case Named(s) => s != ""
    case BuiltinIdFunction => true
  }

  /** What the `id` property returns: the raw `_id` of a task whose parent id is
      falsy, or a formatted `parent/_id` string. */
  datatype IdValue = Raw(local: LocalId) | Path(text: string)

  function Text(v: IdValue): string {
    match v
    case Raw(l) => Render(l)
    case Path(s) => s
  }

  predicate Truthy(v: IdValue) {
    match v
    case Raw(l) => LocalTruthy(l)
    case Path(s) => s != ""
  }

  /** The id of a task whose parent has id `parent`. */
  function Extend(parent: IdValue, l: LocalId): IdValue {
    if Truthy(parent) then Path(Text(parent) + "/" + Render(l)) else Raw(l)
  }

  /** The id of the last task of a chain of local ids, root first. */
  function Identity(chain: seq<LocalId>): IdValue
    requires |chain| > 0
  {
    var l := chain[|chain| - 1];
    if |chain| == 1 then Raw(l) else Extend(Identity(chain[..|chain| - 1]), l)
  }

  function Renders(chain: seq<LocalId>): (r: seq<string>)
    ensures |r| == |chain|
    ensures forall i :: 0 <= i < |chain| ==> r[i] == Render(chain[i])
  {
    seq(|chain|, i requires 0 <= i < |chain| => Render(chain[i]))
  }

  /** When no local id is falsy, the id of a chain is its local ids joined by "/". */
  lemma {:induction false} IdentityIsJoinedPath(chain: seq<LocalId>)
    requires |chain| > 0
    requires forall i :: 0 <= i < |chain| ==> LocalTruthy(chain[i])
    ensures Truthy(Identity(chain))
    ensures Text(Identity(chain)) == JoinPath(Renders(chain))
  {
    if |chain| > 1 {
      var c := chain[..|chain| - 1];
      IdentityIsJoinedPath(c);
      assert Renders(chain)[..|chain| - 1] == Renders(c);
    }
  }

  /** A Python log call that produced a record. */
  datatype Event = Event(level: nat, msg: string, args: seq<Value>, excInfo: bool,
                         context: Option<map<string, Value>>)

  datatype ScopeError =
    | PopFromEmptyList   // IndexError from list.pop()
    | NoActiveTask       // AttributeError: to() with no task on the stack

  datatype Task = Task(
    localId: LocalId,
    ancestors: seq<LocalId>,        // `_parent`: [] for None, else the parent's chain
    msg: string,
    args: seq<Value>,
    data: map<string, Value>,       // bound key/value data
    smsg: Option<string>,           // deferred success message
    sargs: Option<seq<Value>>,
    counter: nat,                   // per-event counter used in ordering keys
    tasks: nat)                     // child sequence counter

  /** `Task(_id, msg, *args, **kwargs)`: detached, nothing deferred, counters at zero. */
  function NewTask(l: LocalId, msg: string, args: seq<Value>, data: map<string, Value>): Task {
    Task(l, [], msg, args, data, None, None, 0, 0)
  }

  /** The `id` property. */
  function Id(t: Task): IdValue {
    Identity(t.ancestors + [t.localId])
  }

  /** The `parent` property: the parent's `id`, or None. */
  function Parent(t: Task): Option<IdValue> {
    if |t.ancestors| == 0 then None else Some(Identity(t.ancestors))
  }

  /** `id` is the parent's id, "/", the local id, or the bare local id when the
      parent is missing or its id is falsy. */
  lemma IdFollowsParent(t: Task)
    ensures Parent(t).None? ==> Id(t) == Raw(t.localId)
    ensures Parent(t).Some? && Truthy(Parent(t).value) ==>
              Id(t) == Path(Text(Parent(t).value) + "/" + Render(t.localId))
    ensures Parent(t).Some? && !Truthy(Parent(t).value) ==> Id(t) == Raw(t.localId)
  {
    var c := t.ancestors + [t.localId];
    assert c[..|c| - 1] == t.ancestors;
  }

  // ---------------------------------------------------------------------------
  // The stack

  type Stack = seq<Task>

  function LocalIds(st: Stack): (r: seq<LocalId>)
    ensures |r| == |st|
    ensures forall i :: 0 <= i < |st| ==> r[i] == st[i].localId
  {
    seq(|st|, i requires 0 <= i < |st| => st[i].localId)
  }

  /** Parent links mirror stack adjacency: the bottom task has no parent and each
      other task's parent is the task just below it. */
  ghost predicate WellLinked(st: Stack) {
    forall i :: 0 <= i < |st| ==> st[i].ancestors == LocalIds(st[..i])
  }

  lemma LocalIdsSnoc(st: Stack, t: Task)
    ensures LocalIds(st + [t]) == LocalIds(st) + [t.localId]
  {
  }

  lemma WellLinkedPrefix(st: Stack, n: nat)
    requires WellLinked(st)
    requires n <= |st|
    ensures WellLinked(st[..n])
  {
    forall i | 0 <= i < n
      ensures st[..n][i].ancestors == LocalIds(st[..n][..i])
    {
      assert st[..n][..i] == st[..i];
    }
  }

  /** On a consistently linked stack of truthy local ids, each task's id is the
      '/'-joined path of the local ids from the bottom up to and including its own. */
  lemma IdIsJoinedLocalIds(st: Stack, i: nat)
    requires WellLinked(st) && i < |st|
    requires forall j :: 0 <= j < |st| ==> LocalTruthy(st[j].localId)
    ensures Text(Id(st[i])) == JoinPath(Renders(LocalIds(st[..i + 1])))
  {
    assert st[..i + 1] == st[..i] + [st[i]];
    LocalIdsSnoc(st[..i], st[i]);
    IdentityIsJoinedPath(LocalIds(st[..i + 1]));
  }

  /** The `top` property. */
  function Top(st: Stack): Option<Task> {
    if |st| > 0 then Some(st[|st| - 1]) else None
  }

  function AncestryOf(top: Option<Task>): seq<LocalId> {
    match top
    case None => []
    case Some(p) => p.ancestors + [p.localId]
  }

  /** `push`: link the task to the current top, then append it. */
  function Push(st: Stack, t: Task): (r: Stack)
    ensures |r| == |st| + 1 && r[..|st|] == st
    ensures r[|st|].(ancestors := t.ancestors) == t
    ensures Parent(r[|st|]) == (if |st| == 0 then None else Some(Id(st[|st| - 1])))
    ensures WellLinked(st) ==> WellLinked(r)
  {
    PushKeepsLinks(st, t);
    st + [t.(ancestors := AncestryOf(Top(st)))]
  }

  /** On a well-linked stack, the ancestry a pushed task receives is the local ids
      of the whole stack. */
  lemma AncestryOfTopIsLocalIds(st: Stack)
    requires WellLinked(st)
    ensures AncestryOf(Top(st)) == LocalIds(st)
  {
    if |st| > 0 {
      var n := |st| - 1;
      assert st[n].ancestors == LocalIds(st[..n]);
      assert st[..n] + [st[n]] == st;
      LocalIdsSnoc(st[..n], st[n]);
    }
  }

  lemma PushKeepsLinks(st: Stack, t: Task)
    ensures WellLinked(st) ==> WellLinked(st + [t.(ancestors := AncestryOf(Top(st)))])
  {
    var r := st + [t.(ancestors := AncestryOf(Top(st)))];
    if WellLinked(st) {
      AncestryOfTopIsLocalIds(st);
      forall i | 0 <= i < |r|
        ensures r[i].ancestors == LocalIds(r[..i])
      {
        if i < |st| {
          assert r[i] == st[i];
          assert r[..i] == st[..i];
        } else {
          assert r[..i] == st;
        }
      }
    }
  }

  /** `pop`: remove the top and clear its parent link; an empty list raises. */
  function Pop(st: Stack): (r: Result<(Stack, Task), ScopeError>)
    ensures r.Err? <==> |st| == 0
    ensures r.Err? ==> r.error == PopFromEmptyList
    ensures r.Ok? ==> r.value.0 == st[..|st| - 1]
    ensures r.Ok? ==> Parent(r.value.1) == None
    ensures r.Ok? ==> r.value.1.(ancestors := st[|st| - 1].ancestors) == st[|st| - 1]
    ensures r.Ok? && WellLinked(st) ==> WellLinked(r.value.0)
  {
    if |st| == 0 then Err(PopFromEmptyList)
    else
      DropTopKeepsLinks(st);
      Ok((st[..|st| - 1], st[|st| - 1].(ancestors := [])))
  }

  /** Dropping the top scope keeps the links of the rest. */
  lemma DropTopKeepsLinks(st: Stack)
    requires |st| > 0
    ensures WellLinked(st) ==> WellLinked(st[..|st| - 1])
  {
    if WellLinked(st) {
      WellLinkedPrefix(st, |st| - 1);
    }
  }

  /** Popping right after a push gives back the task, detached again, and the
      stack as it was. */
  lemma PushThenPop(st: Stack, t: Task)
    ensures Pop(Push(st, t)) == Ok((st, t.(ancestors := [])))
  {
  }

  /** `top` follows the stack: the task just pushed, and after the matching pop
      the previous top again (None for an empty stack). */
  lemma TopTracksPushPop(st: Stack, t: Task)
    ensures Top(st).None? <==> |st| == 0
    ensures Top(Push(st, t)).Some? && Top(Push(st, t)).value.localId == t.localId
    ensures Top(Push(st, t)).value.msg == t.msg && Top(Push(st, t)).value.data == t.data
    ensures Pop(Push(st, t)).Ok? && Top(Pop(Push(st, t)).value.0) == Top(st)
  {
  }

  function PushAll(st: Stack, ts: seq<Task>): (r: Stack)
    ensures |r| == |st| + |ts|
  {
    if |ts| == 0 then st else Push(PushAll(st, ts[..|ts| - 1]), ts[|ts| - 1])
  }

  /** `n` pops in a row; the popped tasks in the order they came off. */
  function PopN(st: Stack, n: nat): Result<(Stack, seq<Task>), ScopeError> {
    if n == 0 then Ok((st, []))
    else
      match Pop(st)
      case Err(e) => Err(e)
      case Ok((s1, t)) =>
        match PopN(s1, n - 1)
        case Err(e) => Err(e)
        case Ok((s2, ts)) => Ok((s2, [t] + ts))
  }

  /** Popping more tasks than the stack holds raises. */
  lemma {:induction false} PopNFailsIffTooMany(st: Stack, n: nat)
    ensures PopN(st, n).Err? <==> n > |st|
    ensures PopN(st, n).Ok? ==> PopN(st, n).value.0 == st[..|st| - n]
  {
    if n > 0 && |st| > 0 {
      PopNFailsIffTooMany(st[..|st| - 1], n - 1);
      if n <= |st| {
        assert st[..|st| - 1][..|st| - 1 - (n - 1)] == st[..|st| - n];
      }
    }
  }

  function Reverse<T>(s: seq<T>): (r: seq<T>)
    ensures |r| == |s|
  {
    if |s| == 0 then [] else [s[|s| - 1]] + Reverse(s[..|s| - 1])
  }

  /** Matched pushes and pops are LIFO: popping as many tasks as were pushed
      returns them newest first and restores the stack. */
  lemma {:induction false} PushAllThenPopAll(st: Stack, ts: seq<Task>)
    requires forall i :: 0 <= i < |ts| ==> ts[i].ancestors == []
    ensures PopN(PushAll(st, ts), |ts|) == Ok((st, Reverse(ts)))
  {
    if |ts| > 0 {
      var init := ts[..|ts| - 1];
      PushAllThenPopAll(st, init);
      PushThenPop(PushAll(st, init), ts[|ts| - 1]);
    }
  }

  // ---------------------------------------------------------------------------
  // Per-event context

  /** The ordering key `"<counter>@<id>"`. */
  function KeyOf(counter: nat, id: IdValue): string {
    NatToString(counter) + "@" + Text(id)
  }

  /** The text before the first '@'. */
  function BeforeAt(k: string): string {
    if |k| == 0 || k[0] == '@' then "" else [k[0]] + BeforeAt(k[1..])
  }

  lemma {:induction false} BeforeAtDigits(digits: string, rest: string)
    requires AllDigits(digits)
    ensures BeforeAt(digits + "@" + rest) == digits
  {
    if |digits| > 0 {
      assert (digits + "@" + rest)[1..] == digits[1..] + "@" + rest;
      BeforeAtDigits(digits[1..], rest);
    }
  }

  /** Keys determine both the counter and the id text they were built from. */
  lemma KeyOfInjective(a: nat, p: IdValue, b: nat, q: IdValue)
    requires KeyOf(a, p) == KeyOf(b, q)
    ensures a == b && Text(p) == Text(q)
  {
    BeforeAtDigits(NatToString(a), Text(p));
    BeforeAtDigits(NatToString(b), Text(q));
    NatToStringInjective(a, b);
    var k := KeyOf(a, p);
    assert Text(p) == k[|NatToString(a)| + 1..] == Text(q);
  }

  /** The `context` property: build the key, bump the counter, then merge the
      bound data over the key. */
  function ContextOf(t: Task): (r: (map<string, Value>, Task))
    ensures r.1 == t.(counter := t.counter + 1)
    ensures r.0.Keys == t.data.Keys + {"key"}
    ensures forall k :: k in t.data ==> r.0[k] == t.data[k]
    ensures "key" !in t.data ==> r.0["key"] == Str(KeyOf(t.counter, Id(t)))
  {
    (map["key" := Str(KeyOf(t.counter, Id(t)))] + t.data, t.(counter := t.counter + 1))
  }

  /** Two consecutive context reads carry distinct keys and identical bound data. */
  lemma ConsecutiveContextsDiffer(t: Task)
    requires "key" !in t.data
    ensures var (c1, t1) := ContextOf(t);
            var (c2, t2) := ContextOf(t1);
            && c1["key"] != c2["key"]
            && c1 - {"key"} == c2 - {"key"}
            && t2.counter == t.counter + 2
  {
    var (c1, t1) := ContextOf(t);
    var (c2, t2) := ContextOf(t1);
    assert Id(t1) == Id(t);
    if c1["key"] == c2["key"] {
      KeyOfInjective(t.counter, Id(t), t.counter + 1, Id(t));
    }
  }

  /** Bound data is merged after the key, so a bound "key" entry replaces the
      ordering key. */
  lemma BoundKeyOverridesOrderingKey(t: Task)
    requires "key" in t.data
    ensures ContextOf(t).0["key"] == t.data["key"]
  {
  }

  /** The context a new log record receives (`LogRecord.__init__`): None when no
      task is active, otherwise the top's context, which bumps the top's counter. */
  function RecordContext(st: Stack): (r: (Option<map<string, Value>>, Stack))
    ensures r.0.None? <==> |st| == 0
    ensures |r.1| == |st|
    ensures |st| > 0 ==> r.1[..|st| - 1] == st[..|st| - 1]
    ensures |st| > 0 ==> r.1[|st| - 1] == st[|st| - 1].(counter := st[|st| - 1].counter + 1)
    ensures |st| > 0 ==> r.0 == Some(ContextOf(st[|st| - 1]).0)
    ensures WellLinked(st) ==> WellLinked(r.1)
  {
    if |st| == 0 then (None, st)
    else
      var (c, t) := ContextOf(st[|st| - 1]);
      var r := st[..|st| - 1] + [t];
      assert r[..|st| - 1] == st[..|st| - 1];
      assert forall i :: 0 <= i < |st| ==> r[..i] == st[..i] || i == |st| - 1;
      assert WellLinked(st) ==> r[|st| - 1].ancestors == st[|st| - 1].ancestors;
      (Some(c), r)
  }

  /** One logging call: a record exists only when the level is enabled, and only
      then is a context read. */
  function LogCall(st: Stack, level: nat, msg: string, args: seq<Value>, excInfo: bool,
                   threshold: nat): (r: (Stack, seq<Event>))
    ensures |r.1| == (if level >= threshold then 1 else 0)
    ensures level < threshold ==> r.0 == st
    ensures level >= threshold ==> r.0 == RecordContext(st).1
    ensures forall e :: e in r.1 ==>
              e == Event(level, msg, args, excInfo, RecordContext(st).0)
  {
    if level < threshold then (st, [])
    else
      var (ctx, st1) := RecordContext(st);
      (st1, [Event(level, msg, args, excInfo, ctx)])
  }

  // ---------------------------------------------------------------------------
  // Task operations

  /** `bind`: last-write-wins merge into the bound data. */
  function Bind(t: Task, kwargs: map<string, Value>): (r: Task)
    ensures r.data.Keys == t.data.Keys + kwargs.Keys
    ensures forall k :: k in kwargs ==> r.data[k] == kwargs[k]
    ensures forall k :: k in t.data && k !in kwargs ==> r.data[k] == t.data[k]
    ensures r.(data := t.data) == t
  {
    t.(data := t.data + kwargs)
  }

  /** What can happen to one task between two of its records. */
  datatype TaskOp =
    | Logged                                 // a logging call reads its context
    | Rebind(kwargs: map<string, Value>)     // t.bind(**kwargs)
    | Defer(msg: string, args: seq<Value>)   // t.success(msg, *args)
    | NextChild                              // t.get_next_task(), directly or through to()

  /** The task after one operation. */
  function ApplyOp(t: Task, op: TaskOp): Task {
    match op
    case Logged => ContextOf(t).1
    case Rebind(kw) => Bind(t, kw)
    case Defer(m, a) => Success(t, m, a)
    case NextChild => GetNextTask(t).0
  }

  /** The task after a series of operations, in order. */
  function ApplyOps(t: Task, ops: seq<TaskOp>): Task
    decreases |ops|
  {
    if |ops| == 0 then t else ApplyOps(ApplyOp(t, ops[0]), ops[1..])
  }

  /** How many of the operations read the context. */
  function Reads(ops: seq<TaskOp>): nat {
    if |ops| == 0 then 0 else (if ops[0].Logged? then 1 else 0) + Reads(ops[1..])
  }

  /** No operation in the series binds `k` again. */
  predicate KeepsKey(ops: seq<TaskOp>, k: string) {
    forall i :: 0 <= i < |ops| && ops[i].Rebind? ==> k !in ops[i].kwargs
  }

  /** After a bind, the context of every later record carries the bound value,
      whatever records, success messages and child numbers come in between, as
      long as the key is not bound again (this includes "key" itself, which then
      replaces the ordering key). */
  lemma {:induction false} BindShowsInContext(t: Task, kwargs: map<string, Value>, k: string,
                                              ops: seq<TaskOp>)
    requires k in kwargs && KeepsKey(ops, k)
    ensures var c := ContextOf(ApplyOps(Bind(t, kwargs), ops)).0;
            k in c && c[k] == kwargs[k]
  {
    BoundStaysBound(Bind(t, kwargs), k, kwargs[k], ops);
  }

  lemma {:induction false} BoundStaysBound(t: Task, k: string, v: Value, ops: seq<TaskOp>)
    requires k in t.data && t.data[k] == v && KeepsKey(ops, k)
    ensures k in ApplyOps(t, ops).data && ApplyOps(t, ops).data[k] == v
    decreases |ops|
  {
    if |ops| > 0 {
      var t1 := ApplyOp(t, ops[0]);
      assert t1.data[k] == v;
      KeepsKeyTail(ops, k);
      BoundStaysBound(t1, k, v, ops[1..]);
    }
  }

  lemma KeepsKeyTail(ops: seq<TaskOp>, k: string)
    requires |ops| > 0 && KeepsKey(ops, k)
    ensures KeepsKey(ops[1..], k)
  {
    forall i | 0 <= i < |ops[1..]| && ops[1..][i].Rebind?
      ensures k !in ops[1..][i].kwargs
    {
      assert ops[1..][i] == ops[i + 1];
    }
  }

  /** Between two records nothing changes a task's identity, and its record
      counter moves once per context read; a key never bound stays unbound. */
  lemma {:induction false} OpsKeepIdAndCount(t: Task, ops: seq<TaskOp>)
    ensures Id(ApplyOps(t, ops)) == Id(t)
    ensures ApplyOps(t, ops).counter == t.counter + Reads(ops)
    ensures "key" !in t.data && KeepsKey(ops, "key") ==> "key" !in ApplyOps(t, ops).data
    decreases |ops|
  {
    if |ops| > 0 {
      var t1 := ApplyOp(t, ops[0]);
      assert Id(t1) == Id(t);
      if "key" !in t.data && KeepsKey(ops, "key") {
        KeepsKeyTail(ops, "key");
      }
      OpsKeepIdAndCount(t1, ops[1..]);
    }
  }

  /** Ordering keys never repeat: a record's key differs from the key of every
      later record of the same task, whatever operations come in between, as
      long as nobody binds "key" (which would replace the ordering key). */
  lemma ReadsNeverRepeatAKey(t: Task, ops: seq<TaskOp>)
    requires "key" !in t.data && KeepsKey(ops, "key")
    ensures var (c1, t1) := ContextOf(t);
            var t2 := ApplyOps(t1, ops);
            && "key" !in t2.data
            && t2.counter == t.counter + 1 + Reads(ops)
            && c1["key"] != ContextOf(t2).0["key"]
  {
    var (c1, t1) := ContextOf(t);
    var t2 := ApplyOps(t1, ops);
    OpsKeepIdAndCount(t1, ops);
    if c1["key"] == ContextOf(t2).0["key"] {
      KeyOfInjective(t.counter, Id(t), t2.counter, Id(t2));
    }
  }

  /** `success`: store the deferred message; nothing else changes. */
  function Success(t: Task, msg: string, args: seq<Value>): (r: Task)
    ensures r.smsg == Some(msg) && r.sargs == Some(args)
    ensures r.(smsg := t.smsg, sargs := t.sargs) == t
  {
    t.(smsg := Some(msg), sargs := Some(args))
  }

  /** `get_next_task`: bump the child counter and return the new value. */
  function GetNextTask(t: Task): (r: (Task, nat))
    ensures r.1 == t.tasks + 1 && r.0.tasks == r.1
    ensures r.0.(tasks := t.tasks) == t
  {
    (t.(tasks := t.tasks + 1), t.tasks + 1)
  }

  /** `task()`: a top-level task with a fresh uuid chosen by the caller. */
  function TopLevelTask(uuid: string, msg: string, args: seq<Value>,
                        data: map<string, Value>): (r: Task)
    ensures Parent(r) == None && Id(r) == Raw(Uuid(uuid))
    ensures r.counter == 0 && r.tasks == 0 && r.smsg == None && r.data == data
  {
    NewTask(Uuid(uuid), msg, args, data)
  }

  /** `to()`: the child's local id is the top's incremented child counter; with no
      task on the stack the call raises. */
  function To(st: Stack, msg: string, args: seq<Value>, data: map<string, Value>)
    : (r: Result<(Stack, Task), ScopeError>)
    ensures r.Err? <==> |st| == 0
    ensures r.Err? ==> r.error == NoActiveTask
    ensures r.Ok? ==> |r.value.0| == |st| && r.value.0[..|st| - 1] == st[..|st| - 1]
    ensures r.Ok? ==> r.value.0[|st| - 1] == st[|st| - 1].(tasks := st[|st| - 1].tasks + 1)
    ensures r.Ok? ==> r.value.1 == NewTask(SeqNo(st[|st| - 1].tasks + 1), msg, args, data)
    ensures r.Ok? && WellLinked(st) ==> WellLinked(r.value.0)
  {
    if |st| == 0 then Err(NoActiveTask)
    else
      var (top, n) := GetNextTask(st[|st| - 1]);
      var s := st[..|st| - 1] + [top];
      assert s[..|st| - 1] == st[..|st| - 1];
      assert forall i :: 0 <= i < |st| - 1 ==> s[..i] == st[..i];
      Ok((s, NewTask(SeqNo(n), msg, args, data)))
  }

  /** `get_foreign_task` as the code has it: the token is built from `parent`,
      not from `id`, so a top-level task exports "None/<n>". */
  function GetForeignTaskAsWritten(t: Task): (r: (Task, string))
    ensures r.0 == GetNextTask(t).0
    ensures Parent(t).None? ==> r.1 == "None/" + NatToString(t.tasks + 1)
    ensures Parent(t).Some? ==> r.1 == Text(Parent(t).value) + "/" + NatToString(t.tasks + 1)
  {
    var (t1, n) := GetNextTask(t);
    var p := match Parent(t) case None => "None" case Some(v) => Text(v);
    (t1, p + "/" + NatToString(n))
  }

  /** `get_foreign_task` as documented: `"<id>/<n>"` through the shared child counter. */
  function GetForeignTask(t: Task): (r: (Task, string))
    ensures r.0 == GetNextTask(t).0
    ensures r.1 == Text(Id(t)) + "/" + NatToString(t.tasks + 1)
    ensures |r.1| > |Text(Id(t))| + 1
    ensures r.1[..|Text(Id(t))| + 1] == Text(Id(t)) + "/"
  {
    var (t1, n) := GetNextTask(t);
    var tok := Text(Id(t)) + "/" + NatToString(n);
    assert tok[..|Text(Id(t))| + 1] == Text(Id(t)) + "/";
    (t1, tok)
  }

  /** `import_task` as the code has it: the token is ignored and the builtin `id`
      becomes the local id. */
  function ImportTaskAsWritten(token: string, msg: string, args: seq<Value>,
                               data: map<string, Value>): (r: Task)
    ensures r.localId == BuiltinIdFunction && Parent(r) == None
  {
    NewTask(BuiltinIdFunction, msg, args, data)
  }

  /** `import_task` as documented: the token becomes the local id verbatim. */
  function ImportTask(token: string, msg: string, args: seq<Value>,
                      data: map<string, Value>): (r: Task)
    ensures r.localId == Named(token) && Parent(r) == None
    ensures r.counter == 0 && r.tasks == 0 && r.data == data
  {
    NewTask(Named(token), msg, args, data)
  }

  /** Which reading of `get_foreign_task`/`import_task`: the code as written, or
      the documented behaviour. */
  datatype Code = AsWritten | Corrected

  /** `get_foreign_task` under either reading. */
  function Export(code: Code, t: Task): (r: (Task, string))
    ensures r.0 == GetNextTask(t).0
    ensures r.1 == ExportPrefix(code, t) + "/" + NatToString(t.tasks + 1)
  {
    match code
    case AsWritten => GetForeignTaskAsWritten(t)
    case Corrected => GetForeignTask(t)
  }

  /** What the token names before the '/': the task's id, or, as written, its
      parent's (the text "None" at top level). */
  function ExportPrefix(code: Code, t: Task): string {
    match code
    case Corrected => Text(Id(t))
    case AsWritten => match Parent(t) case None => "None" case Some(v) => Text(v)
  }

  /** `import_task` under either reading. */
  function Import(code: Code, token: string, msg: string, args: seq<Value>,
                  data: map<string, Value>): (r: Task)
    ensures r.localId == (if code.Corrected? then Named(token) else BuiltinIdFunction)
    ensures r.ancestors == [] && r.counter == 0 && r.tasks == 0 && r.data == data
  {
    match code
    case AsWritten => ImportTaskAsWritten(token, msg, args, data)
    case Corrected => ImportTask(token, msg, args, data)
  }

  /** Who asks for a child sequence number: `to()` or `get_foreign_task()`. */
  datatype ChildKind = LocalChild | ForeignChild

  /** What a child request hands out: the local id `SeqNo(n)` of a child made by
      `to()`, or an exported token, with the value the shared counter had after
      the request. */
  datatype Issued = Local(n: nat) | Foreign(n: nat, token: string)

  /** A series of child requests against one task, in order. */
  function IssueChildren(code: Code, t: Task, kinds: seq<ChildKind>): (r: (Task, seq<Issued>))
    ensures |r.1| == |kinds|
    ensures r.0.(tasks := t.tasks) == t
  {
    if |kinds| == 0 then (t, [])
    else
      var (t1, out) := IssueChildren(code, t, kinds[..|kinds| - 1]);
      match kinds[|kinds| - 1]
      case LocalChild =>
        var (t2, n) := GetNextTask(t1);
        (t2, out + [Local(n)])
      case ForeignChild =>
        var (t2, tok) := Export(code, t1);
        (t2, out + [Foreign(t2.tasks, tok)])
  }

  /** Local children and exported tokens draw from one counter: the i-th request
      gets number `tasks + i + 1`, and a token is the export prefix, "/" and its
      number. Under either reading of the export. */
  lemma {:induction false} IssuedNumbers(code: Code, t: Task, kinds: seq<ChildKind>)
    ensures IssueChildren(code, t, kinds).0.tasks == t.tasks + |kinds|
    ensures forall i :: 0 <= i < |kinds| ==>
              && IssueChildren(code, t, kinds).1[i].n == t.tasks + i + 1
              && (IssueChildren(code, t, kinds).1[i].Local? <==> kinds[i].LocalChild?)
    ensures forall i :: 0 <= i < |kinds| && IssueChildren(code, t, kinds).1[i].Foreign? ==>
              IssueChildren(code, t, kinds).1[i].token ==
                ExportPrefix(code, t) + "/" + NatToString(IssueChildren(code, t, kinds).1[i].n)
  {
    if |kinds| > 0 {
      var n := |kinds| - 1;
      var pre := kinds[..n];
      IssuedNumbers(code, t, pre);
      var (t1, out) := IssueChildren(code, t, pre);
      assert ExportPrefix(code, t1) == ExportPrefix(code, t) by {
        assert t1.ancestors == t.ancestors && t1.localId == t.localId;
      }
      var r := IssueChildren(code, t, kinds);
      assert r.1[..n] == out;
      forall i | 0 <= i < n
        ensures r.1[i] == out[i] && kinds[i] == pre[i]
      {
        assert r.1[i] == r.1[..n][i];
      }
    }
  }

  /** The numbers drawn are pairwise different, and no token names the number
      of a local child. Under the corrected reading the prefix is the task's own
      id, so no token equals the id "<id>/<m>" of a child opened with `to()` on
      the task. As written the prefix is the parent's id, so the second clause
      speaks about numbers only: a token can still equal a task's own id
      (`ExportAsWrittenRepeatsOwnId`). */
  lemma ChildNumbersDistinct(code: Code, t: Task, kinds: seq<ChildKind>)
    ensures var out := IssueChildren(code, t, kinds).1;
            forall i, j :: 0 <= i < j < |out| ==> out[i].n != out[j].n
    ensures var out := IssueChildren(code, t, kinds).1;
            forall i, j :: 0 <= i < |out| && 0 <= j < |out| && out[i].Local? && out[j].Foreign? ==>
              out[j].token != ExportPrefix(code, t) + "/" + NatToString(out[i].n)
  {
    IssuedNumbers(code, t, kinds);
    var out := IssueChildren(code, t, kinds).1;
    var p := ExportPrefix(code, t);
    forall i, j | 0 <= i < |out| && 0 <= j < |out| && out[i].Local? && out[j].Foreign?
      ensures out[j].token != p + "/" + NatToString(out[i].n)
    {
      TokenNamesOneNumber(p, out[j].n, out[i].n);
    }
  }

  /** As written, the first export of a task opened with `to()` is that task's
      own id: both are the parent's id, "/", then 1. The corrected token extends
      the id by "/1" instead. */
  lemma ExportAsWrittenRepeatsOwnId(st: Stack, msg: string, args: seq<Value>, data: map<string, Value>)
    requires |st| > 0 && Truthy(Id(st[|st| - 1])) && st[|st| - 1].tasks == 0
    ensures var (st1, c) := To(st, msg, args, data).value;
            var child := Push(st1, c)[|st1|];
            && Export(AsWritten, child).1 == Text(Id(child))
            && Export(Corrected, child).1 == Text(Id(child)) + "/1"
  {
    var (st1, c) := To(st, msg, args, data).value;
    var child := Push(st1, c)[|st1|];
    assert Id(st1[|st| - 1]) == Id(st[|st| - 1]);
    FirstExportOfFirstChild(child);
  }

  lemma FirstExportOfFirstChild(child: Task)
    requires Parent(child).Some? && Truthy(Parent(child).value)
    requires child.localId == SeqNo(1) && child.tasks == 0
    ensures Export(AsWritten, child).1 == Text(Id(child))
    ensures Export(Corrected, child).1 == Text(Id(child)) + "/1"
  {
    IdFollowsParent(child);
    assert Render(child.localId) == "1" == NatToString(child.tasks + 1);
  }

  /** Two tokens with the same prefix are equal only for equal numbers. */
  lemma TokenNamesOneNumber(p: string, a: nat, b: nat)
    ensures p + "/" + NatToString(a) == p + "/" + NatToString(b) <==> a == b
  {
    if p + "/" + NatToString(a) == p + "/" + NatToString(b) {
      assert (p + "/" + NatToString(a))[|p| + 1..] == NatToString(a);
      assert (p + "/" + NatToString(b))[|p| + 1..] == NatToString(b);
    }
    NatToStringInjective(a, b);
  }

  /** With the documented export and import, a task continued in another
      process has the exporter's id as a strict prefix of its own. */
  lemma ExportThenImportExtendsPath(t: Task, msg: string, args: seq<Value>,
                                    data: map<string, Value>)
    ensures var tok := GetForeignTask(t).1;
            var other := Push([], ImportTask(tok, msg, args, data));
            var path := Text(Id(other[0]));
            && |path| > |Text(Id(t))|
            && path[..|Text(Id(t))|] == Text(Id(t))
            && path[|Text(Id(t))|] == '/'
  {
    var tok := GetForeignTask(t).1;
    var other := Push([], ImportTask(tok, msg, args, data));
    assert Id(other[0]) == Raw(Named(tok));
    assert tok[..|Text(Id(t))| + 1] == Text(Id(t)) + "/";
  }

  /** As written, a top-level task exports "None/1" and the importing side ignores
      the token: the continued task's id is the builtin's name. */
  lemma ExportThenImportAsWrittenLosesPath(msg: string, args: seq<Value>,
                                           data: map<string, Value>)
    ensures var t := NewTask(Named("abc"), msg, args, data);
            var tok := GetForeignTaskAsWritten(t).1;
            var other := Push([], ImportTaskAsWritten(tok, msg, args, data));
            && tok == "None/1"
            && Text(Id(other[0])) == "<built-in function id>"
  {
    var t := NewTask(Named("abc"), msg, args, data);
    assert NatToString(1) == "1";
    var other := Push([], ImportTaskAsWritten(GetForeignTaskAsWritten(t).1, msg, args, data));
    assert Id(other[0]) == Raw(BuiltinIdFunction);
  }

  // ---------------------------------------------------------------------------
  // Scope guard

  /** `__enter__`: push first, then log the opening message at INFO. */
  function Enter(st: Stack, t: Task, threshold: nat): (r: (Stack, seq<Event>))
    ensures |r.0| == |st| + 1 && r.0[..|st|] == st
    ensures r.0[|st|] == t.(ancestors := r.0[|st|].ancestors, counter := r.0[|st|].counter)
    ensures Parent(r.0[|st|]) == (if |st| == 0 then None else Some(Id(st[|st| - 1])))
    ensures |r.1| == (if INFO >= threshold then 1 else 0)
    ensures forall e :: e in r.1 ==>
              e.level == INFO && e.msg == t.msg && e.args == t.args &&
              e.context == Some(ContextOf(Push(st, t)[|st|]).0)
    ensures WellLinked(st) ==> WellLinked(r.0)
  {
    LogCall(Push(st, t), INFO, t.msg, t.args, false, threshold)
  }

  /** Truthiness of the deferred success message. */
  predicate HasSuccess(t: Task) {
    t.smsg.Some? && t.smsg.value != ""
  }

  datatype ExitStep = ExitStep(stack: Stack, events: seq<Event>, popped: Result<Task, ScopeError>)

  /** `__exit__` of `self`: log the failure (when an exception is in flight) or
      the deferred success message, then always pop. The method returns False,
      so an exception in flight keeps propagating; the callers of this function
      carry it on unchanged. */
  function Exit(st: Stack, self: Task, failed: bool, threshold: nat): (r: ExitStep)
    ensures |r.events| <= 1
    ensures failed ==> |r.events| == (if ERROR >= threshold then 1 else 0)
    ensures failed ==> forall e :: e in r.events ==>
              e.level == ERROR && e.msg == "FAILED " + self.msg && e.args == self.args && e.excInfo
    ensures !failed && HasSuccess(self) ==> |r.events| == (if INFO >= threshold then 1 else 0)
    ensures !failed && HasSuccess(self) ==> forall e :: e in r.events ==>
              e.level == INFO && e.msg == self.smsg.value && e.args == self.sargs.GetOr([]) && !e.excInfo
    ensures !failed && !HasSuccess(self) ==> r.events == []
    ensures r.popped.Ok? <==> |st| > 0
    ensures |st| > 0 ==> r.stack == st[..|st| - 1]
    ensures |st| > 0 ==> Parent(r.popped.value) == None
    ensures |st| > 0 ==> r.popped.value.localId == st[|st| - 1].localId
    ensures WellLinked(st) ==> WellLinked(r.stack)
  {
    var (st1, evs) :=
      if failed then LogCall(st, ERROR, "FAILED " + self.msg, self.args, true, threshold)
      else if HasSuccess(self) then LogCall(st, INFO, self.smsg.value, self.sargs.GetOr([]), false, threshold)
      else (st, []);
    assert |st1| == |st| && (|st| > 0 ==> st1[..|st| - 1] == st[..|st| - 1]);
    assert |st| > 0 ==> st1[|st| - 1].localId == st[|st| - 1].localId;
    match Pop(st1)
    case Ok((st2, t)) => ExitStep(st2, evs, Ok(t))
    case Err(e) => ExitStep(st1, evs, Err(e))
  }
}

=== FILE: daemon.dfy ===
/** The receive loop of the daemon (distlogd/main.py): pick a decoder from the
    third letter of the topic, decode the body, hand the data to the plugin
    registry, count the message. Sockets and the clock are not modelled: the
    loop runs over the messages received before the measuring interval ends. */
module Daemon {
  import opened Common
  import opened Formatters
  import opened Handler
  import opened Plugins

  /** A multipart message as `recv_multipart` returns it: the handler's two-part
      frame, or a message with some other number of parts. */
  datatype Received = Pair(frame: Frame) | WrongPartCount(parts: nat)

  /** Python's `head[2:3]`: the third letter, or nothing for a shorter topic. */
  function ThirdLetter(head: string): (r: string)
    ensures |head| >= 3 ==> r == [head[2]]
    ensures |head| < 3 ==> r == ""
  {
    if |head| >= 3 then head[2..3] else ""
  }

  datatype DecodePath = Binary | Text

  /** `head[2:3] == b'P'` selects `pickle.loads`; anything else `json.loads`. */
  function PathFor(head: string): (p: DecodePath)
    ensures p == Binary <==> |head| >= 3 && head[2] == 'P'
  {
    if ThirdLetter(head) == "P" then Binary else Text
  }

  /** The decoder depends on the third letter only: the system and kind letters,
      and anything after the third, are ignored. */
  lemma OnlyThirdLetterDecides(h1: string, h2: string)
    requires |h1| >= 3 && |h2| >= 3 && h1[2] == h2[2]
    ensures PathFor(h1) == PathFor(h2)
  {
  }

  /** A short topic takes the text path. */
  lemma ShortTopicIsText(head: string)
    requires |head| < 3
    ensures PathFor(head) == Text
  {
  }

  datatype DaemonError =
    | UnpackError          // `head, body = ...` on a message that is not two parts
    | DecodeError          // the body is not in the format of the chosen decoder
    | PluginRaised         // a plugin's `match` or `handle` raised
    | NameError            // `plugins` is not bound in the module

  /** Decoding a body with the chosen library; a body in the other library's format,
      or plain text, does not decode. */
  function Decode(path: DecodePath, body: Payload): (r: Result<Record, DaemonError>)
    ensures r.Ok? <==> (path == Binary && body.PickleDocument?) || (path == Text && body.JsonDocument?)
    ensures r.Ok? ==> r.value == body.fields
    ensures r.Err? ==> r.error == DecodeError
  {
    match (path, body)
    case (Binary, PickleDocument(fields)) => Ok(fields)
    case (Text, JsonDocument(fields)) => Ok(fields)
    case _ => Err(DecodeError)
  }

  /** Unpacking and decoding one message. */
  function Receive(m: Received): (r: Result<Record, DaemonError>)
    ensures m.WrongPartCount? ==> r == Err(UnpackError)
    ensures m.Pair? ==> r == Decode(PathFor(m.frame.topic), m.frame.payload)
  {
    match m
    case WrongPartCount(_) => Err(UnpackError)
    case Pair(Frame(head, body)) => Decode(PathFor(head), body)
  }

  /** What the loop did: the messages fully processed, the data handed to the
      registry (in order), every plugin call made, and the exception that ended
      the loop before the messages ran out. */
  datatype ServeResult = ServeResult(count: nat, dispatched: seq<Record>, calls: seq<Call>, error: Option<DaemonError>)

  /** Processing one message: decode it and dispatch the data. */
  function StepOn(reg: Registry, m: Received, matchOf: (PluginId, Record) -> MatchReply,
                  handleOk: (PluginId, Record) -> bool): (r: ServeResult)
    ensures r.count <= 1 && |r.dispatched| <= 1
    ensures r.error.None? <==> r.count == 1
    ensures Receive(m).Err? ==> r == ServeResult(0, [], [], Some(Receive(m).error))
  {
    match Receive(m)
    case Err(e) => ServeResult(0, [], [], Some(e))
    case Ok(data) =>
      var d := Dispatch(reg, data, matchOf, handleOk);
      ServeResult(if d.raisedAt.None? then 1 else 0, [data], d.calls,
                  if d.raisedAt.None? then None else Some(PluginRaised))
  }

  /** A message that decodes is handed to the registry once, with the calls of
      one dispatch; it is counted exactly when no plugin raised. */
  lemma StepOnDispatches(reg: Registry, m: Received, matchOf: (PluginId, Record) -> MatchReply,
                         handleOk: (PluginId, Record) -> bool)
    ensures var r := StepOn(reg, m, matchOf, handleOk);
            && (r.error.None? <==> Receive(m).Ok? && Dispatch(reg, Receive(m).value, matchOf, handleOk).raisedAt.None?)
            && (Receive(m).Ok? ==> r.dispatched == [Receive(m).value] && r.calls == Dispatch(reg, Receive(m).value, matchOf, handleOk).calls)
  {
  }

  /** The loop over the messages received, with `plugins.handle` taken to be the
      registry's dispatch. The first exception ends the loop. */
  function ServeSpec(reg: Registry, ms: seq<Received>, matchOf: (PluginId, Record) -> MatchReply,
                     handleOk: (PluginId, Record) -> bool): (r: ServeResult)
    ensures r.count <= |ms|
    ensures r.error.None? <==> r.count == |ms|
    ensures r.error.None? ==> |r.dispatched| == |ms|
    ensures r.count <= |r.dispatched| <= r.count + 1
    decreases |ms|
  {
    if |ms| == 0 then ServeResult(0, [], [], None)
    else
      var prev := ServeSpec(reg, ms[..|ms| - 1], matchOf, handleOk);
      if prev.error.Some? then prev
      else
        var s := StepOn(reg, ms[|ms| - 1], matchOf, handleOk);
        ServeResult(prev.count + s.count, prev.dispatched + s.dispatched, prev.calls + s.calls, s.error)
  }

  /** One more message for the loop: nothing changes once it has stopped. */
  lemma ServeStep(reg: Registry, ms: seq<Received>, matchOf: (PluginId, Record) -> MatchReply,
                  handleOk: (PluginId, Record) -> bool)
    requires |ms| > 0
    ensures var prev := ServeSpec(reg, ms[..|ms| - 1], matchOf, handleOk);
            var s := StepOn(reg, ms[|ms| - 1], matchOf, handleOk);
            ServeSpec(reg, ms, matchOf, handleOk)
            == if prev.error.Some? then prev
               else ServeResult(prev.count + s.count, prev.dispatched + s.dispatched, prev.calls + s.calls, s.error)
  {
  }

  /** The messages before `count` were each decoded and dispatched without an
      exception. */
  lemma {:induction false} ServeCountedSucceeded(reg: Registry, ms: seq<Received>,
                                                matchOf: (PluginId, Record) -> MatchReply,
                                                handleOk: (PluginId, Record) -> bool)
    ensures var r := ServeSpec(reg, ms, matchOf, handleOk);
            forall k :: 0 <= k < r.count ==> StepOn(reg, ms[k], matchOf, handleOk).error.None?
    decreases |ms|
  {
    if |ms| > 0 {
      var n := |ms| - 1;
      var pre := ms[..n];
      ServeCountedSucceeded(reg, pre, matchOf, handleOk);
      ServeStep(reg, ms, matchOf, handleOk);
      var prev := ServeSpec(reg, pre, matchOf, handleOk);
      var s := StepOn(reg, ms[n], matchOf, handleOk);
      var r := ServeSpec(reg, ms, matchOf, handleOk);
      if prev.error.Some? {
        assert r == prev;
        forall k | 0 <= k < r.count
          ensures StepOn(reg, ms[k], matchOf, handleOk).error.None?
        {
          assert pre[k] == ms[k];
        }
      } else {
        assert prev.count == n && r.count == n + s.count;
        forall k | 0 <= k < r.count
          ensures StepOn(reg, ms[k], matchOf, handleOk).error.None?
        {
          if k < n {
            assert pre[k] == ms[k];
          } else {
            assert k == n && s.count == 1;
          }
        }
      }
    }
  }

  /** When the loop stopped early, the message at `count` is the one that raised,
      with the exception the loop ended on. */
  lemma {:induction false} ServeStopsAtFirstFailure(reg: Registry, ms: seq<Received>,
                                                   matchOf: (PluginId, Record) -> MatchReply,
                                                   handleOk: (PluginId, Record) -> bool)
    ensures var r := ServeSpec(reg, ms, matchOf, handleOk);
            r.error.Some? ==> r.count < |ms| && StepOn(reg, ms[r.count], matchOf, handleOk).error == r.error
    decreases |ms|
  {
    if |ms| > 0 {
      var n := |ms| - 1;
      var pre := ms[..n];
      ServeStopsAtFirstFailure(reg, pre, matchOf, handleOk);
      ServeStep(reg, ms, matchOf, handleOk);
      var prev := ServeSpec(reg, pre, matchOf, handleOk);
      var s := StepOn(reg, ms[n], matchOf, handleOk);
      var r := ServeSpec(reg, ms, matchOf, handleOk);
      if prev.error.Some? {
        assert r == prev;
        assert pre[prev.count] == ms[prev.count];
      } else if s.error.Some? {
        assert prev.count == n && s.count == 0;
        assert r.count == n && r.error == s.error;
      }
    }
  }

  /** The data handed to the registry is the decoded messages, in arrival order. */
  lemma {:induction false} ServeDispatchesInOrder(reg: Registry, ms: seq<Received>,
                                                 matchOf: (PluginId, Record) -> MatchReply,
                                                 handleOk: (PluginId, Record) -> bool)
    ensures var r := ServeSpec(reg, ms, matchOf, handleOk);
            forall k :: 0 <= k < r.count ==> Receive(ms[k]) == Ok(r.dispatched[k])
    decreases |ms|
  {
    if |ms| > 0 {
      var n := |ms| - 1;
      var pre := ms[..n];
      ServeDispatchesInOrder(reg, pre, matchOf, handleOk);
      var prev := ServeSpec(reg, pre, matchOf, handleOk);
      var r := ServeSpec(reg, ms, matchOf, handleOk);
      if prev.error.None? {
        var st := StepOn(reg, ms[n], matchOf, handleOk);
        StepOnDispatches(reg, ms[n], matchOf, handleOk);
        assert r.dispatched == prev.dispatched + st.dispatched;
        forall k | 0 <= k < r.count
          ensures Receive(ms[k]) == Ok(r.dispatched[k])
        {
          if k < n {
            assert r.dispatched[k] == prev.dispatched[k];
            assert pre[k] == ms[k];
          }
        }
      } else {
        forall k | 0 <= k < r.count
          ensures Receive(ms[k]) == Ok(r.dispatched[k])
        {
          assert pre[k] == ms[k];
        }
      }
    }
  }

  /** Once the loop has stopped, later messages are never read. */
  lemma {:induction false} ServeStops(reg: Registry, ms: seq<Received>, n: nat,
                                     matchOf: (PluginId, Record) -> MatchReply, handleOk: (PluginId, Record) -> bool)
    requires n <= |ms|
    requires ServeSpec(reg, ms[..n], matchOf, handleOk).error.Some?
    ensures ServeSpec(reg, ms, matchOf, handleOk) == ServeSpec(reg, ms[..n], matchOf, handleOk)
    decreases |ms|
  {
    if n < |ms| {
      assert ms[..|ms| - 1][..n] == ms[..n];
      ServeStops(reg, ms[..|ms| - 1], n, matchOf, handleOk);
    } else {
      assert ms[..n] == ms;
    }
  }

  /** The loop itself: receive, decode, dispatch, count, one message at a time. */
  method Serve(reg: Registry, ms: seq<Received>, matchOf: (PluginId, Record) -> MatchReply,
               handleOk: (PluginId, Record) -> bool) returns (count: nat, dispatched: seq<Record>, calls: seq<Call>, error: Option<DaemonError>)
    ensures ServeResult(count, dispatched, calls, error) == ServeSpec(reg, ms, matchOf, handleOk)
  {
    count, dispatched, calls, error := 0, [], [], None;
    var i := 0;
    while i < |ms|
      invariant 0 <= i <= |ms|
      invariant ServeResult(count, dispatched, calls, None) == ServeSpec(reg, ms[..i], matchOf, handleOk)
    {
      assert ms[..i + 1][..i] == ms[..i];
      assert ms[..i + 1][i] == ms[i];
      var step := StepOn(reg, ms[i], matchOf, handleOk);
      dispatched := dispatched + step.dispatched;
      calls := calls + step.calls;
      if step.error.Some? {
        error := step.error;
        ServeStops(reg, ms, i + 1, matchOf, handleOk);
        return;
      }
      count := count + 1;
      i := i + 1;
    }
    assert ms[..|ms|] == ms;
  }

  /** With no exception, the plugin calls are one full dispatch per message, in
      arrival order. */
  lemma {:induction false} ServeCallsAll(reg: Registry, ms: seq<Received>,
                                        matchOf: (PluginId, Record) -> MatchReply,
                                        handleOk: (PluginId, Record) -> bool)
    requires ServeSpec(reg, ms, matchOf, handleOk).error.None?
    ensures var r := ServeSpec(reg, ms, matchOf, handleOk);
            r.calls == AllCalls(reg, r.dispatched, matchOf, handleOk)
    decreases |ms|
  {
    if |ms| > 0 {
      var n := |ms| - 1;
      ServeStep(reg, ms, matchOf, handleOk);
      var prev := ServeSpec(reg, ms[..n], matchOf, handleOk);
      var s := StepOn(reg, ms[n], matchOf, handleOk);
      StepOnDispatches(reg, ms[n], matchOf, handleOk);
      assert prev.error.None? && s.error.None?;
      ServeCallsAll(reg, ms[..n], matchOf, handleOk);
      var data := Receive(ms[n]).value;
      AllCallsSnoc(reg, prev.dispatched, data, matchOf, handleOk);
    }
  }

  /** Every message is dispatched once, in arrival order: with no exception the
      data handed to the registry is the decoded messages, in order, and the
      plugin calls are one full dispatch per message. */
  lemma ServeDispatchesEachOnce(reg: Registry, ms: seq<Received>,
                                matchOf: (PluginId, Record) -> MatchReply,
                                handleOk: (PluginId, Record) -> bool)
    requires ServeSpec(reg, ms, matchOf, handleOk).error.None?
    ensures var r := ServeSpec(reg, ms, matchOf, handleOk);
            && r.count == |ms| && |r.dispatched| == |ms|
            && (forall k :: 0 <= k < |ms| ==> Receive(ms[k]) == Ok(r.dispatched[k]))
            && r.calls == AllCalls(reg, r.dispatched, matchOf, handleOk)
  {
    ServeDispatchesInOrder(reg, ms, matchOf, handleOk);
    ServeCallsAll(reg, ms, matchOf, handleOk);
  }

  /** The plugin calls of dispatching each data item in turn, no plugin raising. */
  function AllCalls(reg: Registry, data: seq<Record>, matchOf: (PluginId, Record) -> MatchReply,
                    handleOk: (PluginId, Record) -> bool): seq<Call>
    decreases |data|
  {
    if |data| == 0 then []
    else AllCalls(reg, data[..|data| - 1], matchOf, handleOk) + Dispatch(reg, data[|data| - 1], matchOf, handleOk).calls
  }

  lemma AllCallsSnoc(reg: Registry, data: seq<Record>, x: Record, matchOf: (PluginId, Record) -> MatchReply,
                     handleOk: (PluginId, Record) -> bool)
    ensures AllCalls(reg, data + [x], matchOf, handleOk) == AllCalls(reg, data, matchOf, handleOk) + Dispatch(reg, x, matchOf, handleOk).calls
  {
    assert (data + [x])[..|data|] == data;
  }

  /** The loop as written: `plugins` is never imported, so the first message that
      decodes raises `NameError` before anything is dispatched or counted. */
  function ServeAsWritten(ms: seq<Received>): (r: ServeResult)
    ensures r.count == 0 && r.dispatched == [] && r.calls == []
    ensures r.error.None? <==> |ms| == 0
    ensures |ms| > 0 && Receive(ms[0]).Ok? ==> r.error == Some(NameError)
  {
    if |ms| == 0 then ServeResult(0, [], [], None)
    else
      match Receive(ms[0])
      case Err(e) => ServeResult(0, [], [], Some(e))
      case Ok(_) => ServeResult(0, [], [], Some(NameError))
  }

  /** A message the written loop cannot count is counted by the loop that
      dispatches through the registry, when no plugin raises. */
  lemma NameErrorLosesMessages(reg: Registry, m: Received, matchOf: (PluginId, Record) -> MatchReply,
                               handleOk: (PluginId, Record) -> bool)
    requires Receive(m).Ok?
    requires forall p :: p in reg ==> !Raises(p, Receive(m).value, matchOf, handleOk)
    ensures ServeAsWritten([m]) == ServeResult(0, [], [], Some(NameError))
    ensures ServeSpec(reg, [m], matchOf, handleOk).count == 1
    ensures ServeSpec(reg, [m], matchOf, handleOk).dispatched == [Receive(m).value]
  {
    assert [m][..0] == [];
  }

  /** End to end: a handler built by the corrected constructor, with a JSON or
      pickle formatter, sends a record whose bound values that formatter can
      serialise, and the daemon decodes it back into the normalised record. */
  lemma EmitThenReceive(system: string, f: Formatter, r: Record, env: Env)
    requires NewHandler(system).Ok?
    requires f == JsonFormatter || f == PickleFormatter
    requires GetMessage(r).Ok? && Encodes(Some(f), r)
    ensures var h := SetFormatter(NewHandler(system).value, f).handler;
            var e := Emit(h, r, env, true);
            && e.outcome.Sent?
            && Receive(Pair(e.outcome.frame)) == Ok(Normalize(r, env).value)
            && e.record == Normalize(r, env).value
  {
    var h := SetFormatter(NewHandler(system).value, f).handler;
    TopicLayout(system, f);
    EncodingTags(f);
  }

  /** With the constructor as written, the empty system and a pickle formatter
      give the topic "LP": its third letter is missing, the daemon picks the JSON
      decoder, and the message does not decode. */
  lemma EmptySystemMisroutes(r: Record, env: Env)
    requires GetMessage(r).Ok? && Encodes(Some(PickleFormatter), r)
    ensures var h := SetFormatter(NewHandlerAsWritten("").value, PickleFormatter).handler;
            var e := Emit(h, r, env, true);
            && e.outcome.Sent?
            && e.outcome.frame.topic == "LP"
            && PathFor(e.outcome.frame.topic) == Text
            && Receive(Pair(e.outcome.frame)) == Err(DecodeError)
  {
    EmptySystemTopicAsWritten();
  }
}

=== FILE: formatters.dfy ===
/** Record normalisation and the encoding tags (distlog/logger/formatters.py).

    The bytes produced by `json.dumps` and `pickle.dumps` are not modelled: a
    payload is a document that carries the normalised record, tagged by the
    library that produced it. */
module Formatters {
  import opened Common

  /** A captured `exc_info` triple; its contents are opaque here. */
  datatype ExcInfo = ExcInfo(description: string)

  /** The attributes of a `logging.LogRecord` that the core reads or writes. */
  datatype Record = Record(
    name: string,
    levelno: int,
    pathname: string,
    filename: string,
    moduleName: string,   // `module`
    lineno: int,
    msg: string,
    args: Option<seq<Value>>,
    excInfo: Option<ExcInfo>,
    excText: Option<string>,
    message: Option<string>,
    asctime: Option<string>,
    hostname: Option<string>,
    context: Option<map<string, Value>>)

  /** Errors raised while formatting a record: by `msg % args`, or by the
      serializer. */
  datatype FormatError =
    | IncompleteFormat              // a lone '%' at the end
    | NotEnoughArguments
    | NotAllConverted               // arguments left over
    | NumberRequired                // %d or %i given something other than a number
    | UnsupportedConversion(c: char)
    | NotSerializable               // `json.dumps` or `pickle.dumps` rejected a bound value

  function Convert(c: char, v: Value): Result<string, FormatError>
    requires c == 's' || c == 'd' || c == 'i'
  {
    if c == 's' then Ok(ValueToString(v))
    else if v.Int? then Ok(IntToString(v.i))
    else Err(NumberRequired)
  }

  /** `fmt % tuple(args)` for the conversions %s, %d, %i and the escape %%. */
  function Interpolate(fmt: string, args: seq<Value>): Result<string, FormatError>
    decreases |fmt|
  {
    if |fmt| == 0 then
      if |args| == 0 then Ok("") else Err(NotAllConverted)
    else if fmt[0] != '%' then
      var rest :- Interpolate(fmt[1..], args);
      Ok([fmt[0]] + rest)
    else if |fmt| == 1 then Err(IncompleteFormat)
    else if fmt[1] == '%' then
      var rest :- Interpolate(fmt[2..], args);
      Ok("%" + rest)
    else if fmt[1] == 's' || fmt[1] == 'd' || fmt[1] == 'i' then
      if |args| == 0 then Err(NotEnoughArguments)
      else
        var piece :- Convert(fmt[1], args[0]);
        var rest :- Interpolate(fmt[2..], args[1..]);
        Ok(piece + rest)
    else Err(UnsupportedConversion(fmt[1]))
  }

  /** The conversions a template asks for, in order, or None if it is malformed. */
  function Conversions(fmt: string): Option<seq<char>>
    decreases |fmt|
  {
    if |fmt| == 0 then Some([])
    else if fmt[0] != '%' then Conversions(fmt[1..])
    else if |fmt| == 1 then None
    else if fmt[1] == '%' then Conversions(fmt[2..])
    else if fmt[1] == 's' || fmt[1] == 'd' || fmt[1] == 'i' then
      match Conversions(fmt[2..])
      case None => None
      case Some(cs) => Some([fmt[1]] + cs)
    else None
  }

  /** One argument per conversion, and a number wherever a number is asked for. */
  predicate ArgumentsFit(cs: seq<char>, args: seq<Value>) {
    && |cs| == |args|
    && forall k :: 0 <= k < |cs| && cs[k] != 's' ==> args[k].Int?
  }

  /** Interpolation succeeds exactly when the template is well formed and the
      arguments fit its conversions. */
  lemma {:induction false} InterpolateSucceedsIff(fmt: string, args: seq<Value>)
    ensures Interpolate(fmt, args).Ok? <==>
              Conversions(fmt).Some? && ArgumentsFit(Conversions(fmt).value, args)
    decreases |fmt|
  {
    if |fmt| == 0 {
    } else if fmt[0] != '%' {
      InterpolateSucceedsIff(fmt[1..], args);
    } else if |fmt| == 1 {
    } else if fmt[1] == '%' {
      InterpolateSucceedsIff(fmt[2..], args);
    } else if fmt[1] == 's' || fmt[1] == 'd' || fmt[1] == 'i' {
      if |args| > 0 {
        InterpolateSucceedsIff(fmt[2..], args[1..]);
        if Conversions(fmt[2..]).Some? {
          var cs := Conversions(fmt[2..]).value;
          ArgumentsFitCons(fmt[1], cs, args);
        }
      }
    }
  }

  lemma ArgumentsFitCons(c: char, cs: seq<char>, args: seq<Value>)
    requires |args| > 0 && (c == 's' || c == 'd' || c == 'i')
    ensures ArgumentsFit([c] + cs, args) <==>
              Convert(c, args[0]).Ok? && ArgumentsFit(cs, args[1..])
  {
    if ArgumentsFit(cs, args[1..]) && Convert(c, args[0]).Ok? {
      forall k | 0 <= k < |[c] + cs| && ([c] + cs)[k] != 's'
        ensures args[k].Int?
      {
        if k > 0 {
          assert ([c] + cs)[k] == cs[k - 1];
          assert args[k] == args[1..][k - 1];
        }
      }
    }
    if ArgumentsFit([c] + cs, args) {
      forall k | 0 <= k < |cs| && cs[k] != 's'
        ensures args[1..][k].Int?
      {
        assert ([c] + cs)[k + 1] == cs[k];
      }
    }
  }

  /** `LogRecord.getMessage`: the template is interpolated only when there are
      arguments (an empty tuple or None leaves it as it is). */
  function GetMessage(r: Record): Result<string, FormatError> {
    if r.args.None? || |r.args.value| == 0 then Ok(r.msg)
    else Interpolate(r.msg, r.args.value)
  }

  /** A string on one line. */
  predicate NoNewline(s: string) {
    forall k :: 0 <= k < |s| ==> s[k] != '\n'
  }

  /** `s.replace('\n', '\\n')`. */
  function Escape(s: string): (r: string)
    ensures NoNewline(r)
    ensures |r| >= |s|
  {
    if |s| == 0 then ""
    else (if s[0] == '\n' then "\\n" else [s[0]]) + Escape(s[1..])
  }

  lemma NoNewlineAppend(a: string, b: string)
    requires NoNewline(a) && NoNewline(b)
    ensures NoNewline(a + b)
  {
    forall k | 0 <= k < |a + b|
      ensures (a + b)[k] != '\n'
    {
      if k >= |a| {
        assert (a + b)[k] == b[k - |a|];
      }
    }
  }

  /** Escaping changes a string exactly when it holds a newline. */
  lemma {:induction false} EscapeIsIdentityIff(s: string)
    ensures Escape(s) == s <==> NoNewline(s)
  {
    if |s| > 0 {
      EscapeIsIdentityIff(s[1..]);
      if s[0] == '\n' {
        assert Escape(s)[0] == '\\' != s[0];
      } else {
        assert Escape(s) == [s[0]] + Escape(s[1..]);
        assert s == [s[0]] + s[1..];
        if Escape(s) == s {
          assert Escape(s[1..]) == Escape(s)[1..] == s[1..];
        }
      }
    }
  }

  /** Escaping twice is escaping once. */
  lemma EscapeIdempotent(s: string)
    ensures Escape(Escape(s)) == Escape(s)
  {
    EscapeIsIdentityIff(Escape(s));
  }

  /** What `formatTime`, `os.uname().nodename` and `formatException` return; the
      model takes them as given. */
  datatype Env = Env(asctime: string, hostname: string, traceback: string)

  /** Truthiness of `exc_text`. */
  predicate HasText(t: Option<string>) {
    t.Some? && t.value != ""
  }

  /** `Serializer._extract_record`: interpolate and escape the message, stamp the
      time and host, flatten the exception to escaped text unless a text is
      already cached, and drop `exc_info` and `args`. When interpolation raises,
      the record is left untouched. */
  function Normalize(r: Record, env: Env): (res: Result<Record, FormatError>)
    ensures res.Ok? <==> GetMessage(r).Ok?
    ensures res.Ok? ==> res.value.message == Some(Escape(GetMessage(r).value))
    ensures res.Ok? ==> NoNewline(res.value.message.value)
    ensures res.Ok? ==> res.value.excInfo == None && res.value.args == None
    ensures res.Ok? && r.excInfo.Some? && !HasText(r.excText) ==>
              res.value.excText == Some(Escape(env.traceback))
    ensures res.Ok? && (r.excInfo.None? || HasText(r.excText)) ==> res.value.excText == r.excText
    ensures res.Ok? ==> res.value.asctime == Some(env.asctime) && res.value.hostname == Some(env.hostname)
    ensures res.Ok? ==> res.value.(message := r.message, asctime := r.asctime, hostname := r.hostname,
                                    excText := r.excText, excInfo := r.excInfo, args := r.args) == r
  {
    var m :- GetMessage(r);
    var excText := if r.excInfo.Some? && !HasText(r.excText) then Some(Escape(env.traceback))
                   else r.excText;
    Ok(r.(message := Some(Escape(m)), asctime := Some(env.asctime), hostname := Some(env.hostname),
          excText := excText, excInfo := None, args := None))
  }

  /** Normalisation clears `args`, so normalising the same record again yields the
      escaped template, not the interpolated message. */
  lemma NormalizeTwiceUsesTemplate(r: Record, env: Env, env': Env)
    requires Normalize(r, env).Ok?
    ensures Normalize(Normalize(r, env).value, env').Ok?
    ensures Normalize(Normalize(r, env).value, env').value.message == Some(Escape(r.msg))
  {
  }

  /** The record of the formatter tests: `LogRecord('name', 20,
      '/here/and/nowhere/else.py', 50, 'hi there %s %d', ('number', 1), None)`. */
  function SampleRecord(): Record {
    Record("name", 20, "/here/and/nowhere/else.py", "else.py", "else", 50,
           "hi there %s %d", Some([Str("number"), Int(1)]), None, None, None, None, None, None)
  }

  /** A string in which `%` interpolation has nothing to convert. */
  predicate NoPercent(s: string) {
    forall k :: 0 <= k < |s| ==> s[k] != '%'
  }

  /** Text without '%' passes through interpolation unchanged. */
  lemma {:induction false} PlainPrefixPassesThrough(p: string, rest: string, args: seq<Value>)
    requires NoPercent(p)
    ensures Interpolate(p + rest, args) ==
              match Interpolate(rest, args)
              case Ok(x) => Ok(p + x)
              case Err(e) => Err(e)
    decreases |p|
  {
    if |p| > 0 {
      assert (p + rest)[1..] == p[1..] + rest;
      PlainPrefixPassesThrough(p[1..], rest, args);
      assert [p[0]] + p[1..] == p;
      if Interpolate(rest, args).Ok? {
        assert [p[0]] + (p[1..] + Interpolate(rest, args).value) == p + Interpolate(rest, args).value;
      }
    } else {
      assert p + rest == rest;
      if Interpolate(rest, args).Ok? {
        assert p + Interpolate(rest, args).value == Interpolate(rest, args).value;
      }
    }
  }

  /** A conversion consumes one argument. */
  lemma ConversionStep(c: char, rest: string, v: Value, args: seq<Value>)
    requires c == 's' || c == 'd' || c == 'i'
    ensures Interpolate(['%', c] + rest, [v] + args) ==
              match Convert(c, v)
              case Err(e) => Err(e)
              case Ok(piece) =>
                match Interpolate(rest, args)
                case Ok(x) => Ok(piece + x)
                case Err(e) => Err(e)
  {
    assert (['%', c] + rest)[2..] == rest;
    assert ([v] + args)[1..] == args;
  }

  /** `pre + '%s %d' % (word, n)` for a prefix without conversions. */
  lemma WordThenNumber(pre: string, word: string, n: int)
    requires NoPercent(pre)
    ensures Interpolate(pre + "%s %d", [Str(word), Int(n)]) == Ok(pre + word + " " + IntToString(n))
  {
    var num := IntToString(n);
    assert Interpolate("", []) == Ok("");
    ConversionStep('d', "", Int(n), []);
    assert ['%', 'd'] + "" == "%d" && [Int(n)] + [] == [Int(n)];
    assert Convert('d', Int(n)) == Ok(num);
    assert num + "" == num;
    assert Interpolate("%d", [Int(n)]) == Ok(num);
    PlainPrefixPassesThrough(" ", "%d", [Int(n)]);
    assert " " + "%d" == " %d";
    ConversionStep('s', " %d", Str(word), [Int(n)]);
    assert ['%', 's'] + " %d" == "%s %d" && [Str(word)] + [Int(n)] == [Str(word), Int(n)];
    assert Interpolate("%s %d", [Str(word), Int(n)]) == Ok(word + (" " + num));
    PlainPrefixPassesThrough(pre, "%s %d", [Str(word), Int(n)]);
    assert pre + (word + (" " + num)) == pre + word + " " + num;
  }

  /** The message of the formatter tests: 'hi there %s %d' % ('number', 1). */
  lemma SampleMessage()
    ensures Interpolate("hi there %s %d", [Str("number"), Int(1)]) == Ok("hi there number 1")
  {
    var pre := "hi there ";
    assert NoPercent(pre);
    WordThenNumber(pre, "number", 1);
    assert IntToString(1) == "1";
    assert pre + "%s %d" == "hi there %s %d";
    assert pre + "number" + " " + "1" == "hi there number 1";
  }

  lemma SampleMessageHasNoNewline()
    ensures Escape("hi there number 1") == "hi there number 1"
  {
    var m := "hi there number 1";
    assert NoNewline("hi there ") && NoNewline("number 1");
    NoNewlineAppend("hi there ", "number 1");
    assert "hi there " + "number 1" == m;
    EscapeIsIdentityIff(m);
  }

  lemma SampleRecordNormalizes(env: Env)
    ensures Normalize(SampleRecord(), env).Ok?
    ensures var n := Normalize(SampleRecord(), env).value;
            && n.message == Some("hi there number 1")
            && n.name == "name" && n.levelno == 20 && n.filename == "else.py"
            && n.moduleName == "else" && n.lineno == 50
  {
    var r := SampleRecord();
    SampleMessage();
    assert GetMessage(r) == Ok("hi there number 1");
    SampleMessageHasNoNewline();
  }

  /** The formatter attached to a handler. */
  datatype Formatter =
    | JsonFormatter
    | PickleFormatter
    | BaseSerializer      // an instance of Serializer itself
    | PlainFormatter      // a logging.Formatter that is not a Serializer

  predicate IsSerializer(f: Formatter) {
    !f.PlainFormatter?
  }

  datatype EncodingError = NotImplemented | NoEncodingAttribute

  /** The `encoding` property. */
  function Encoding(f: Formatter): Result<char, EncodingError> {
    match f
    case JsonFormatter => Ok('J')
    case PickleFormatter => Ok('P')
    case BaseSerializer => Err(NotImplemented)
    case PlainFormatter => Err(NoEncodingAttribute)
  }

  /** Only the two concrete serializers have a tag, the tags are distinct, and
      both are encoding letters of the topic. */
  lemma EncodingTags(f: Formatter)
    ensures Encoding(f).Ok? <==> f == JsonFormatter || f == PickleFormatter
    ensures Encoding(f).Ok? ==> Encoding(f).value in "JP"
    ensures f.BaseSerializer? ==> Encoding(f) == Err(NotImplemented)
    ensures Encoding(JsonFormatter) != Encoding(PickleFormatter)
  {
  }

  /** What the formatter returns. */
  datatype Payload =
    | JsonDocument(fields: Record)
    | PickleDocument(fields: Record)
    | PlainText(text: string)

  /** Whether the serializer `f` accepts a value: strings and integers always;
      another object when its library accepts it. */
  predicate Dumpable(f: Formatter, v: Value) {
    match v
    case Obj(_, jsonable, picklable) => if f == PickleFormatter then picklable else jsonable
    case _ => true
  }

  /** Whether formatting can serialise the record's bound data. Only the JSON and
      pickle formatters serialise. After normalisation `args` and `exc_info` are
      cleared; of the attributes this record models, the bound context values
      are then the only ones that can be rejected (`msg` is a string here, and
      attributes added through `extra=` are not part of the record). */
  predicate Encodes(f: Option<Formatter>, r: Record) {
    (f == Some(JsonFormatter) || f == Some(PickleFormatter)) && r.context.Some? ==>
      forall k :: k in r.context.value ==> Dumpable(f.value, r.context.value[k])
  }

  /** `Handler.format(record)`: the attached formatter, or logging's default one.
      Returns the payload and the record as the formatter left it; on failure,
      the error and the record as the formatter left it (a serializer has
      already normalised the record when `dumps` raises). */
  function Format(f: Option<Formatter>, r: Record, env: Env): (res: Result<(Payload, Record), (FormatError, Record)>)
    ensures res.Ok? <==> GetMessage(r).Ok? && Encodes(f, r)
    ensures GetMessage(r).Err? ==> res == Err((GetMessage(r).error, r))
    ensures GetMessage(r).Ok? && !Encodes(f, r) ==> res == Err((NotSerializable, Normalize(r, env).value))
    ensures f == Some(JsonFormatter) && res.Ok? ==>
              res.value == (JsonDocument(Normalize(r, env).value), Normalize(r, env).value)
    ensures f == Some(PickleFormatter) && res.Ok? ==>
              res.value == (PickleDocument(Normalize(r, env).value), Normalize(r, env).value)
    ensures f != Some(JsonFormatter) && f != Some(PickleFormatter) ==> res.Ok? ==> res.value.0.PlainText?
  {
    match GetMessage(r)
    case Err(e) => Err((e, r))
    case Ok(m) =>
      match f
      case Some(JsonFormatter) =>
        var n := Normalize(r, env).value;
        if Encodes(f, r) then Ok((JsonDocument(n), n)) else Err((NotSerializable, n))
      case Some(PickleFormatter) =>
        var n := Normalize(r, env).value;
        if Encodes(f, r) then Ok((PickleDocument(n), n)) else Err((NotSerializable, n))
      case _ =>
        Ok((PlainText(m), r.(message := Some(m))))
  }
}

=== FILE: handler.dfy ===
/** The publishing handler (distlog/logger/handler.py): the system check of the
    constructor, the wire topic, the formatter guard and the send/drop decision
    of `emit`. The socket is not modelled; whether `send_multipart` succeeds is
    a parameter. */
module Handler {
  import opened Common
  import opened Formatters

  const TopicSystem := "TSP"
  const TopicEncoding := "JP"
  const TopicLogging := "L"
  /** The default `system` argument of the constructor. */
  const DefaultSystem := "P"

  /** Python's `a in b` on two strings: `a` occurs in `b` as a contiguous run
      (the empty string occurs everywhere). */
  predicate Occurs(a: string, b: string) {
    exists i, j :: 0 <= i <= j <= |b| && b[i..j] == a
  }

  /** The ways `assert system in 'TSP'` can pass: every contiguous run of "TSP". */
  lemma OccursInTopicSystem(s: string)
    ensures Occurs(s, TopicSystem) <==> s in {"", "T", "S", "P", "TS", "SP", "TSP"}
  {
    if Occurs(s, TopicSystem) {
      OccurringRunIsListed(s);
    }
    if s in {"", "T", "S", "P", "TS", "SP", "TSP"} {
      ListedRunOccurs(s);
    }
  }

  lemma OccurringRunIsListed(s: string)
    requires Occurs(s, TopicSystem)
    ensures s in {"", "T", "S", "P", "TS", "SP", "TSP"}
  {
    var b := TopicSystem;
    var i, j :| 0 <= i <= j <= |b| && b[i..j] == s;
    assert b[0] == 'T' && b[1] == 'S' && b[2] == 'P';
    if i == j {
      assert s == "";
    } else if j - i == 1 {
      assert s == [b[i]];
    } else if j - i == 2 {
      assert s == [b[i], b[i + 1]];
    } else {
      assert s == [b[0], b[1], b[2]];
    }
  }

  lemma ListedRunOccurs(s: string)
    requires s in {"", "T", "S", "P", "TS", "SP", "TSP"}
    ensures Occurs(s, TopicSystem)
  {
    var b := TopicSystem;
    if s == "" {
      assert b[0..0] == s;
    } else if s == "T" {
      assert b[0..1] == s;
    } else if s == "S" {
      assert b[1..2] == s;
    } else if s == "P" {
      assert b[2..3] == s;
    } else if s == "TS" {
      assert b[0..2] == s;
    } else if s == "SP" {
      assert b[1..3] == s;
    } else {
      assert b[0..3] == s;
    }
  }

  /** An assertion failure or a `TypeError` raised by the handler's own code;
      `EncodingRaised` wraps what the formatter's `encoding` property raises. */
  datatype HandlerError = AssertionError | TypeError | EncodingRaised(e: EncodingError)

  /** A `ZmqHandler` with the attributes the core reads; `logTopic` is None until
      a topic has been set. */
  datatype Handler = Handler(system: string, formatter: Option<Formatter>, logTopic: Option<string>)

  /** The constructor as written: `system in 'TSP'` is a substring test. */
  function NewHandlerAsWritten(system: string): (r: Result<Handler, HandlerError>)
    ensures r.Ok? <==> system in {"", "T", "S", "P", "TS", "SP", "TSP"}
    ensures r.Ok? ==> r.value.system == system && r.value.formatter.None? && r.value.logTopic.None?
    ensures r.Err? ==> r.error == AssertionError
  {
    OccursInTopicSystem(system);
    if Occurs(system, TopicSystem) then Ok(Handler(system, None, None)) else Err(AssertionError)
  }

  /** The constructor with the check the topic layout needs: the system is one of
      the letters T, S and P. */
  function NewHandler(system: string): (r: Result<Handler, HandlerError>)
    ensures r.Ok? <==> system in {"T", "S", "P"}
    ensures r.Ok? ==> r.value.system == system && r.value.formatter.None? && r.value.logTopic.None?
    ensures r.Err? ==> r.error == AssertionError
  {
    if |system| == 1 && system[0] in TopicSystem then
      assert system == [system[0]];
      Ok(Handler(system, None, None))
    else Err(AssertionError)
  }

  /** Every system the corrected constructor accepts is also accepted as written;
      the converse fails for "", "TS", "SP" and "TSP". */
  lemma NewHandlerNarrowsAsWritten(system: string)
    ensures NewHandler(system).Ok? ==> NewHandlerAsWritten(system) == NewHandler(system)
    ensures NewHandlerAsWritten(system).Ok? && !NewHandler(system).Ok? <==>
              system in {"", "TS", "SP", "TSP"}
  {
  }

  /** `set_topic(encoding)`: the encoding must occur in "JP"; the log topic is the
      system, the kind letter 'L' and the encoding, with an empty separator. */
  function SetTopic(h: Handler, encoding: string): (r: Result<Handler, HandlerError>)
    ensures r.Ok? <==> Occurs(encoding, TopicEncoding)
    ensures r.Err? ==> r.error == AssertionError
    ensures r.Ok? ==> r.value.system == h.system && r.value.formatter == h.formatter
    ensures r.Ok? ==> r.value.logTopic.Some?
    ensures r.Ok? ==> |r.value.logTopic.value| == |h.system| + 1 + |encoding|
    ensures r.Ok? ==> r.value.logTopic.value[..|h.system|] == h.system
    ensures r.Ok? ==> r.value.logTopic.value[|h.system|] == 'L'
    ensures r.Ok? ==> r.value.logTopic.value[|h.system| + 1..] == encoding
  {
    if Occurs(encoding, TopicEncoding) then
      Ok(h.(logTopic := Some(h.system + TopicLogging + encoding)))
    else Err(AssertionError)
  }

  /** The encoding letters pass the `set_topic` check. */
  lemma EncodingLettersOccur(c: char)
    requires c in TopicEncoding
    ensures Occurs([c], TopicEncoding)
  {
    if c == 'J' {
      assert TopicEncoding[0..1] == [c];
    } else {
      assert TopicEncoding[1..2] == [c];
    }
  }

  /** What `setFormatter` leaves behind: the handler, and the exception it raised. */
  datatype SetFormatterResult = SetFormatterResult(handler: Handler, raised: Option<HandlerError>)

  /** `setFormatter(fmt)`: a non-serializer raises `TypeError` and changes nothing;
      otherwise the formatter is attached first and the topic is then set from
      its `encoding`, which raises for the base class (leaving the formatter
      attached and the topic as it was). */
  function SetFormatter(h: Handler, f: Formatter): (r: SetFormatterResult)
    ensures !IsSerializer(f) <==> r == SetFormatterResult(h, Some(TypeError))
    ensures IsSerializer(f) ==> r.handler.formatter == Some(f) && r.handler.system == h.system
    ensures r.raised.None? <==> f == JsonFormatter || f == PickleFormatter
    ensures r.raised.None? ==> r.handler.logTopic == Some(h.system + "L" + [Encoding(f).value])
    ensures r.raised.Some? ==> r.handler.logTopic == h.logTopic
  {
    if !IsSerializer(f) then SetFormatterResult(h, Some(TypeError))
    else
      var h' := h.(formatter := Some(f));
      match Encoding(f)
      case Err(e) => SetFormatterResult(h', Some(EncodingRaised(e)))
      case Ok(c) =>
        EncodingTags(f);
        EncodingLettersOccur(c);
        SetFormatterResult(SetTopic(h', [c]).value, None)
  }

  /** With a handler built by the corrected constructor, a successful
      `setFormatter` yields a three-letter topic: the system letter, 'L', and
      the formatter's encoding tag. */
  lemma TopicLayout(system: string, f: Formatter)
    requires NewHandler(system).Ok?
    requires SetFormatter(NewHandler(system).value, f).raised.None?
    ensures var t := SetFormatter(NewHandler(system).value, f).handler.logTopic;
            && t.Some? && |t.value| == 3
            && t.value[0] in TopicSystem && t.value[1] == 'L'
            && Encoding(f) == Ok(t.value[2])
  {
  }

  /** The default system with the JSON formatter publishes on "PLJ". */
  lemma DefaultJsonTopic()
    ensures NewHandler(DefaultSystem).Ok?
    ensures SetFormatter(NewHandler(DefaultSystem).value, JsonFormatter) ==
              SetFormatterResult(Handler("P", Some(JsonFormatter), Some("PLJ")), None)
  {
    assert "P" + "L" + ['J'] == "PLJ";
  }

  /** The handler as written accepts the empty system, and a pickle formatter
      then yields a two-letter topic. */
  lemma EmptySystemTopicAsWritten()
    ensures NewHandlerAsWritten("").Ok?
    ensures SetFormatter(NewHandlerAsWritten("").value, PickleFormatter).handler.logTopic == Some("LP")
  {
    assert "" + "L" + ['P'] == "LP";
  }

  /** One message on the wire: the topic frame and the payload frame. */
  datatype Frame = Frame(topic: string, payload: Payload)

  /** Why `emit` sent nothing; `handleError` reported it. */
  datatype DropReason = FormatFailed(e: FormatError) | NoTopic | SendFailed

  datatype EmitOutcome =
    | Sent(frame: Frame)
    | Dropped(reason: DropReason)
    | Raised                        // the exception from `send_multipart` escapes `emit`

  /** The outcome of `emit` and the record as the formatter left it. */
  datatype EmitResult = EmitResult(outcome: EmitOutcome, record: Record)

  /** The formatting half of `emit`, shared by both versions: format the record,
      then cast the topic (which fails while it is still None). */
  function Prepare(h: Handler, r: Record, env: Env): (res: Result<(Frame, Record), (DropReason, Record)>)
    ensures res.Ok? <==> GetMessage(r).Ok? && Encodes(h.formatter, r) && h.logTopic.Some?
    ensures res.Ok? ==> res.value.0.topic == h.logTopic.value
    ensures res.Ok? ==> (res.value.0.payload, res.value.1) == Format(h.formatter, r, env).value
    ensures GetMessage(r).Err? ==> res == Err((FormatFailed(GetMessage(r).error), r))
    ensures GetMessage(r).Ok? && !Encodes(h.formatter, r) ==>
              res == Err((FormatFailed(NotSerializable), Normalize(r, env).value))
  {
    match Format(h.formatter, r, env)
    case Err((e, r')) => Err((FormatFailed(e), r'))
    case Ok((payload, r')) =>
      match h.logTopic
      case None => Err((NoTopic, r'))
      case Some(topic) => Ok((Frame(topic, payload), r'))
  }

  /** `emit` as written: `send_multipart` sits outside the `try`, so a failed
      send escapes. */
  function EmitAsWritten(h: Handler, r: Record, env: Env, sendOk: bool): (res: EmitResult)
    ensures res.outcome.Raised? <==> Prepare(h, r, env).Ok? && !sendOk
    ensures res.outcome.Sent? <==> Prepare(h, r, env).Ok? && sendOk
    ensures res.outcome.Sent? ==> res.outcome.frame == Prepare(h, r, env).value.0
  {
    match Prepare(h, r, env)
    case Err((why, r')) => EmitResult(Dropped(why), r')
    case Ok((frame, r')) =>
      if sendOk then EmitResult(Sent(frame), r') else EmitResult(Raised, r')
  }

  /** `emit` with the send inside the guarded region: any failure is reported
      through `handleError` and the message is dropped. */
  function Emit(h: Handler, r: Record, env: Env, sendOk: bool): (res: EmitResult)
    ensures !res.outcome.Raised?
    ensures res.outcome.Sent? <==> GetMessage(r).Ok? && Encodes(h.formatter, r) && h.logTopic.Some? && sendOk
    ensures res.outcome.Sent? ==> res.outcome.frame.topic == h.logTopic.value
    ensures res.outcome.Sent? ==> (res.outcome.frame.payload, res.record) == Format(h.formatter, r, env).value
    ensures GetMessage(r).Err? ==> res == EmitResult(Dropped(FormatFailed(GetMessage(r).error)), r)
    ensures GetMessage(r).Ok? && !Encodes(h.formatter, r) ==>
              res == EmitResult(Dropped(FormatFailed(NotSerializable)), Normalize(r, env).value)
    ensures GetMessage(r).Ok? && Encodes(h.formatter, r) && h.logTopic.None? ==> res.outcome == Dropped(NoTopic)
  {
    match Prepare(h, r, env)
    case Err((why, r')) => EmitResult(Dropped(why), r')
    case Ok((frame, r')) =>
      if sendOk then EmitResult(Sent(frame), r') else EmitResult(Dropped(SendFailed), r')
  }

  /** Both versions agree except on a failed send, which only the written one lets
      escape. */
  lemma EmitAgreesUnlessSendFails(h: Handler, r: Record, env: Env, sendOk: bool)
    ensures EmitAsWritten(h, r, env, sendOk).record == Emit(h, r, env, sendOk).record
    ensures EmitAsWritten(h, r, env, sendOk) != Emit(h, r, env, sendOk) <==>
              Prepare(h, r, env).Ok? && !sendOk
  {
  }

  /** A handler whose formatter was set as a JSON formatter, given a record whose
      message interpolates and whose bound values serialise, raises from `emit`
      as written when the send fails. */
  lemma SendFailureEscapesAsWritten(r: Record, env: Env)
    requires GetMessage(r).Ok? && Encodes(Some(JsonFormatter), r)
    ensures EmitAsWritten(SetFormatter(NewHandler(DefaultSystem).value, JsonFormatter).handler, r, env, false).outcome == Raised
    ensures Emit(SetFormatter(NewHandler(DefaultSystem).value, JsonFormatter).handler, r, env, false).outcome == Dropped(SendFailed)
  {
    DefaultJsonTopic();
  }

  /** A bound value that `json.dumps` rejects (a `datetime`, say) makes both
      versions of `emit` drop the record through `handleError`, after the record
      was normalised; the send is never attempted. */
  lemma UnserializableValueIsDropped(r: Record, env: Env, sendOk: bool, k: string, text: string)
    requires GetMessage(r).Ok?
    requires r.context.Some? && k in r.context.value && r.context.value[k] == Obj(text, false, true)
    ensures var h := SetFormatter(NewHandler(DefaultSystem).value, JsonFormatter).handler;
            && Emit(h, r, env, sendOk) == EmitResult(Dropped(FormatFailed(NotSerializable)), Normalize(r, env).value)
            && EmitAsWritten(h, r, env, sendOk) == Emit(h, r, env, sendOk)
  {
    DefaultJsonTopic();
    assert !Dumpable(JsonFormatter, r.context.value[k]);
  }

  /** Before `setFormatter` the topic is None, so `emit` sends nothing. */
  lemma FreshHandlerSendsNothing(system: string, r: Record, env: Env, sendOk: bool)
    requires NewHandler(system).Ok?
    ensures Emit(NewHandler(system).value, r, env, sendOk).outcome.Dropped?
  {
  }
}

=== FILE: plugins.dfy ===
/** The daemon's plugin registry (distlogd/plugins/__init__.py): ordered,
    duplicate-free registration, the search locations, loading from a
    configuration, and dispatch of one decoded message to every plugin that
    matches it.

    Plugins are objects compared by identity; a plugin is its `PluginId`. What a
    plugin's `match` and `handle` do is given as functions of the plugin and the
    data. Importing a package and calling its `initialize` is given as a function
    of the plugin's configuration entry. */
module Plugins {
  import opened Common

  type PluginId = nat

  /** An object handed to `add_plugin`: its identity, and whether it is an
      instance of `Plugin`. */
  datatype Candidate = Candidate(id: PluginId, isPlugin: bool)

  /** `_plugins`, in registration order. */
  type Registry = seq<PluginId>

  predicate NoDup<T(==)>(s: seq<T>) {
    forall i, j :: 0 <= i < j < |s| ==> s[i] != s[j]
  }

  /** Raised by `add_plugin` for an object that is not a `Plugin`. */
  datatype PluginError = NotAPlugin(id: PluginId)

  /** `add_plugin(plugin)`: reject a non-plugin, append a plugin not yet present,
      and leave the registry alone otherwise. */
  function AddPlugin(reg: Registry, c: Candidate): (r: Result<Registry, PluginError>)
    ensures r.Err? <==> !c.isPlugin
    ensures r.Err? ==> r.error == NotAPlugin(c.id)
    ensures r.Ok? ==> |reg| <= |r.value| <= |reg| + 1 && r.value[..|reg|] == reg
    ensures r.Ok? ==> forall x :: x in r.value <==> x in reg || x == c.id
    ensures r.Ok? && NoDup(reg) ==> NoDup(r.value)
  {
    if !c.isPlugin then Err(NotAPlugin(c.id))
    else if c.id in reg then Ok(reg)
    else
      assert (reg + [c.id])[..|reg|] == reg;
      Ok(reg + [c.id])
  }

  /** Adding a plugin that is already registered changes nothing, so adding the
      same plugin twice is adding it once. */
  lemma AddPluginIdempotent(reg: Registry, c: Candidate)
    requires AddPlugin(reg, c).Ok?
    ensures c.id in AddPlugin(reg, c).value
    ensures AddPlugin(AddPlugin(reg, c).value, c) == AddPlugin(reg, c)
  {
  }

  /** The registry after adding the given plugins one by one. */
  function Registered(reg: Registry, ids: seq<PluginId>): Registry {
    if |ids| == 0 then reg
    else AddPlugin(Registered(reg, ids[..|ids| - 1]), Candidate(ids[|ids| - 1], true)).value
  }

  /** Position of the first occurrence of `x` in `s`. */
  function FirstIndex(s: seq<PluginId>, x: PluginId): (k: nat)
    requires x in s
    ensures k < |s| && s[k] == x
    ensures forall i :: 0 <= i < k ==> s[i] != x
  {
    if s[0] == x then 0 else 1 + FirstIndex(s[1..], x)
  }

  lemma {:induction false} FirstIndexInPrefix(s: seq<PluginId>, n: nat, x: PluginId)
    requires n <= |s| && x in s[..n]
    ensures FirstIndex(s, x) == FirstIndex(s[..n], x)
  {
    if s[0] != x {
      assert s[1..][..n - 1] == s[..n][1..];
      FirstIndexInPrefix(s[1..], n - 1, x);
    }
  }

  /** Registering plugins into an empty registry keeps each plugin once, and
      exactly the plugins that were added. */
  lemma {:induction false} RegisteredMembers(ids: seq<PluginId>)
    ensures NoDup(Registered([], ids))
    ensures forall x :: x in Registered([], ids) <==> x in ids
  {
    if |ids| > 0 {
      var n := |ids| - 1;
      RegisteredMembers(ids[..n]);
      assert ids == ids[..n] + [ids[n]];
    }
  }

  /** `r` lists plugins of `ids` in the order of their first occurrence there. */
  predicate InFirstOccurrenceOrder(ids: seq<PluginId>, r: Registry) {
    && (forall k :: 0 <= k < |r| ==> r[k] in ids)
    && forall i, j :: 0 <= i < j < |r| ==> FirstIndex(ids, r[i]) < FirstIndex(ids, r[j])
  }

  /** Extending the added plugins by one keeps the order of those already listed. */
  lemma OrderExtends(ids: seq<PluginId>, x: PluginId, r0: Registry)
    requires InFirstOccurrenceOrder(ids, r0)
    ensures InFirstOccurrenceOrder(ids + [x], r0)
  {
    var ids' := ids + [x];
    assert ids'[..|ids|] == ids;
    forall k | 0 <= k < |r0|
      ensures FirstIndex(ids', r0[k]) == FirstIndex(ids, r0[k])
    {
      FirstIndexInPrefix(ids', |ids|, r0[k]);
    }
  }

  /** A plugin added for the first time goes after every plugin already listed. */
  lemma OrderAppend(ids: seq<PluginId>, x: PluginId, r0: Registry)
    requires InFirstOccurrenceOrder(ids, r0)
    requires x !in ids
    ensures InFirstOccurrenceOrder(ids + [x], r0 + [x])
  {
    var ids' := ids + [x];
    var r := r0 + [x];
    OrderExtends(ids, x, r0);
    assert FirstIndex(ids', x) == |ids|;
    forall i, j | 0 <= i < j < |r|
      ensures FirstIndex(ids', r[i]) < FirstIndex(ids', r[j])
    {
      assert r[i] == r0[i];
      if j == |r0| {
        assert ids'[..|ids|] == ids;
        FirstIndexInPrefix(ids', |ids|, r0[i]);
      } else {
        assert r[j] == r0[j];
      }
    }
  }

  /** Registering plugins into an empty registry lists the distinct plugins in the
      order in which they were first added. */
  lemma {:induction false} RegistrationOrder(ids: seq<PluginId>)
    ensures NoDup(Registered([], ids))
    ensures forall x :: x in Registered([], ids) <==> x in ids
    ensures InFirstOccurrenceOrder(ids, Registered([], ids))
  {
    RegisteredMembers(ids);
    if |ids| > 0 {
      var n := |ids| - 1;
      var pre := ids[..n];
      var x := ids[n];
      RegistrationOrder(pre);
      assert ids == pre + [x];
      var r0 := Registered([], pre);
      if x in r0 {
        OrderExtends(pre, x, r0);
      } else {
        OrderAppend(pre, x, r0);
      }
    }
  }

  /** The argument of `add_location`: a list, or any other single value. */
  datatype LocationArg = ListOf(paths: seq<string>) | Single(path: string)

  /** `add_location(location)`: a list is concatenated, anything else appended. */
  function AddLocation(locs: seq<string>, arg: LocationArg): (r: seq<string>)
    ensures |r| >= |locs| && r[..|locs|] == locs
    ensures arg.ListOf? ==> r[|locs|..] == arg.paths
    ensures arg.Single? ==> r[|locs|..] == [arg.path]
  {
    match arg
    case ListOf(paths) =>
      assert (locs + paths)[..|locs|] == locs;
      locs + paths
    case Single(path) =>
      assert (locs + [path])[..|locs|] == locs;
      locs + [path]
  }

  /** Adding two lists one after the other is adding their concatenation, and a
      single value is added like a one-element list. */
  lemma AddLocationComposes(locs: seq<string>, a: seq<string>, b: seq<string>, p: string)
    ensures AddLocation(AddLocation(locs, ListOf(a)), ListOf(b)) == AddLocation(locs, ListOf(a + b))
    ensures AddLocation(locs, Single(p)) == AddLocation(locs, ListOf([p]))
  {
    assert locs + a + b == locs + (a + b);
  }

  /** One entry of the `plugins` list of the configuration: its "package" and
      "options" values, None where the key is missing. */
  datatype PluginSpec = PluginSpec(package: Option<string>, options: Option<map<string, Value>>)

  /** The registry after `load_plugins`, the entry whose loading raised (the
      exception is re-raised after it is logged), and the messages logged at
      ERROR on the way. */
  datatype LoadResult = LoadResult(registry: Registry, failed: Option<nat>, logged: seq<string>)

  /** What importing an entry's package and calling its `initialize(options)`
      gave: the returned object, or None when the import or the call raised.
      Each entry's call is its own: two entries naming the same package may
      give different objects. */
  predicate Loads(init: Option<Candidate>) {
    init.Some? && init.value.isPlugin
  }

  /** Entry `spec` registers a plugin: both keys are present, and importing and
      initialising gave a plugin. */
  predicate EntryLoads(spec: PluginSpec, init: Option<Candidate>) {
    spec.package.Some? && spec.options.Some? && Loads(init)
  }

  /** The message `log.exception` records for a package that failed to load. */
  function FailureMessage(package: string): string {
    "failed to load plugin \"" + package + "\""
  }

  /** `load_plugins(plugins)`: import and initialise each entry in order and
      register the result; the first entry that raises stops the loop, and what
      was registered before stays. A missing "package" raises before the `try`
      and is not logged; a missing "options" or a failing import, `initialize`
      or `add_plugin` is logged. `inits[k]` is what entry k's initialisation
      gave. */
  function LoadPlugins(reg: Registry, specs: seq<PluginSpec>, inits: seq<Option<Candidate>>): (r: LoadResult)
    requires |inits| == |specs|
    ensures r.failed.None? <==> forall k :: 0 <= k < |specs| ==> EntryLoads(specs[k], inits[k])
    ensures r.failed.Some? ==>
              && r.failed.value < |specs|
              && !EntryLoads(specs[r.failed.value], inits[r.failed.value])
              && (forall k :: 0 <= k < r.failed.value ==> EntryLoads(specs[k], inits[k]))
    ensures r.failed.None? ==> r.logged == []
    ensures r.failed.Some? && specs[r.failed.value].package.None? ==> r.logged == []
    ensures r.failed.Some? && specs[r.failed.value].package.Some? ==>
              r.logged == [FailureMessage(specs[r.failed.value].package.value)]
    ensures |r.registry| >= |reg| && r.registry[..|reg|] == reg
    decreases |specs|
  {
    if |specs| == 0 then LoadResult(reg, None, [])
    else if !EntryLoads(specs[0], inits[0]) then
      LoadResult(reg, Some(0), if specs[0].package.None? then [] else [FailureMessage(specs[0].package.value)])
    else
      var reg' := AddPlugin(reg, inits[0].value).value;
      var rest := LoadPlugins(reg', specs[1..], inits[1..]);
      assert forall k :: 0 <= k < |inits| - 1 ==> inits[1..][k] == inits[k + 1] && specs[1..][k] == specs[k + 1];
      match rest.failed
      case None => LoadResult(rest.registry, None, [])
      case Some(k) => LoadResult(rest.registry, Some(k + 1), rest.logged)
  }

  /** A failed load keeps exactly what the entries before the failing one
      registered. */
  lemma {:induction false} LoadFailureKeepsEarlier(reg: Registry, specs: seq<PluginSpec>,
                                                  inits: seq<Option<Candidate>>)
    requires |inits| == |specs| && LoadPlugins(reg, specs, inits).failed.Some?
    ensures var r := LoadPlugins(reg, specs, inits);
            var before := LoadPlugins(reg, specs[..r.failed.value], inits[..r.failed.value]);
            before.failed.None? && before.registry == r.registry
    decreases |specs|
  {
    var r := LoadPlugins(reg, specs, inits);
    var k := r.failed.value;
    if !EntryLoads(specs[0], inits[0]) {
      assert specs[..0] == [] && inits[..0] == [];
    } else {
      var reg' := AddPlugin(reg, inits[0].value).value;
      var rest := LoadPlugins(reg', specs[1..], inits[1..]);
      assert k == rest.failed.value + 1 && r.registry == rest.registry;
      LoadFailureKeepsEarlier(reg', specs[1..], inits[1..]);
      var pre := specs[..k];
      var ipre := inits[..k];
      assert ipre[0] == inits[0];
      TailOfPrefix(specs, k);
      TailOfPrefix(inits, k);
      var restPre := LoadPlugins(reg', pre[1..], ipre[1..]);
      assert restPre.failed.None? && restPre.registry == rest.registry;
    }
  }

  lemma TailOfPrefix<T>(s: seq<T>, k: nat)
    requires 1 <= k <= |s|
    ensures s[..k][1..] == s[1..][..k - 1]
  {
  }

  /** The plugins the entries initialise to, when every entry loads. */
  function LoadedIds(inits: seq<Option<Candidate>>): (ids: seq<PluginId>)
    requires forall k :: 0 <= k < |inits| ==> Loads(inits[k])
    ensures |ids| == |inits|
    ensures forall k :: 0 <= k < |inits| ==> Loads(inits[k]) && ids[k] == inits[k].value.id
    decreases |inits|
  {
    if |inits| == 0 then []
    else
      assert Loads(inits[0]);
      [inits[0].value.id] + LoadedIds(inits[1..])
  }

  /** When every entry loads, the registry is the one obtained by adding the
      initialised plugins in order. */
  lemma {:induction false} LoadPluginsRegistersInOrder(reg: Registry, specs: seq<PluginSpec>,
                                                      inits: seq<Option<Candidate>>)
    requires |inits| == |specs| && forall k :: 0 <= k < |inits| ==> EntryLoads(specs[k], inits[k])
    ensures LoadPlugins(reg, specs, inits).registry == RegisteredFrom(reg, LoadedIds(inits))
    decreases |specs|
  {
    if |specs| > 0 {
      var reg' := AddPlugin(reg, inits[0].value).value;
      LoadPluginsRegistersInOrder(reg', specs[1..], inits[1..]);
      assert LoadedIds(inits)[1..] == LoadedIds(inits[1..]);
    }
  }

  /** Loading a configuration into an empty registry, when every entry loads,
      registers each distinct plugin object once, in the order of its first
      entry. */
  lemma LoadPluginsOrder(specs: seq<PluginSpec>, inits: seq<Option<Candidate>>)
    requires |inits| == |specs| && forall k :: 0 <= k < |inits| ==> EntryLoads(specs[k], inits[k])
    ensures var r := LoadPlugins([], specs, inits);
            && r.failed.None?
            && NoDup(r.registry)
            && (forall x :: x in r.registry <==> exists k :: 0 <= k < |inits| && inits[k].value.id == x)
            && InFirstOccurrenceOrder(LoadedIds(inits), r.registry)
  {
    var ids := LoadedIds(inits);
    LoadPluginsRegistersInOrder([], specs, inits);
    RegisteredFromIsRegistered([], ids);
    assert LoadPlugins([], specs, inits).registry == Registered([], ids);
    RegistrationOrder(ids);
    LoadedIdsMembers(inits);
  }

  /** The loaded plugins are exactly the objects the entries initialise to. */
  lemma LoadedIdsMembers(inits: seq<Option<Candidate>>)
    requires forall k :: 0 <= k < |inits| ==> Loads(inits[k])
    ensures forall x :: x in LoadedIds(inits) <==> exists k :: 0 <= k < |inits| && inits[k].value.id == x
  {
  }

  /** The registry after adding the given plugins one by one, front first. */
  function RegisteredFrom(reg: Registry, ids: seq<PluginId>): Registry
    decreases |ids|
  {
    if |ids| == 0 then reg
    else RegisteredFrom(AddPlugin(reg, Candidate(ids[0], true)).value, ids[1..])
  }

  /** The two orders of folding agree. */
  lemma {:induction false} RegisteredFromIsRegistered(reg: Registry, ids: seq<PluginId>)
    ensures RegisteredFrom(reg, ids) == Registered(reg, ids)
    decreases |ids|
  {
    if |ids| > 0 {
      var n := |ids| - 1;
      RegisteredFromIsRegistered(reg, ids[..n]);
      RegisteredFromSnoc(reg, ids[..n], ids[n]);
      assert ids[..n] + [ids[n]] == ids;
    }
  }

  lemma {:induction false} RegisteredFromSnoc(reg: Registry, ids: seq<PluginId>, x: PluginId)
    ensures RegisteredFrom(reg, ids + [x]) == AddPlugin(RegisteredFrom(reg, ids), Candidate(x, true)).value
    decreases |ids|
  {
    if |ids| == 0 {
      assert ids + [x] == [x];
      assert [x][1..] == [];
    } else {
      assert (ids + [x])[0] == ids[0];
      assert (ids + [x])[1..] == ids[1..] + [x];
      RegisteredFromSnoc(AddPlugin(reg, Candidate(ids[0], true)).value, ids[1..], x);
    }
  }

  /** The configuration file's contents. */
  datatype Config = Config(locations: LocationArg, plugins: seq<PluginSpec>)

  /** `load_config`: add the locations, then load the plugins. */
  function LoadConfig(locs: seq<string>, reg: Registry, config: Config,
                      inits: seq<Option<Candidate>>): (r: (seq<string>, LoadResult))
    requires |inits| == |config.plugins|
    ensures r.0 == AddLocation(locs, config.locations)
    ensures r.1 == LoadPlugins(reg, config.plugins, inits)
    ensures r.1.failed.None? ==> forall p :: p in reg ==> p in r.1.registry
  {
    var res := LoadPlugins(reg, config.plugins, inits);
    assert forall p :: p in reg ==> p in res.registry[..|reg|];
    (AddLocation(locs, config.locations), res)
  }

  /** Loading entries `a` then `b`, when every entry of `a` loads, is loading
      `b` into the registry `a` left: the same plugins, the same log, and a
      failure at the same entry counted from the start. */
  lemma {:induction false} LoadPluginsAppend(reg: Registry, a: seq<PluginSpec>, b: seq<PluginSpec>,
                                            ia: seq<Option<Candidate>>, ib: seq<Option<Candidate>>)
    requires |ia| == |a| && |ib| == |b| && LoadPlugins(reg, a, ia).failed.None?
    ensures var r := LoadPlugins(reg, a + b, ia + ib);
            var r2 := LoadPlugins(LoadPlugins(reg, a, ia).registry, b, ib);
            && r.registry == r2.registry
            && r.logged == r2.logged
            && r.failed == (if r2.failed.None? then None else Some(|a| + r2.failed.value))
    decreases |a|
  {
    if |a| == 0 {
      assert a + b == b && ia + ib == ib;
    } else {
      var reg' := AddPlugin(reg, ia[0].value).value;
      ConsSplit(a, b);
      ConsSplit(ia, ib);
      LoadCons(reg, a[0], ia[0], a[1..], ia[1..]);
      LoadCons(reg, a[0], ia[0], a[1..] + b, ia[1..] + ib);
      LoadPluginsAppend(reg', a[1..], b, ia[1..], ib);
    }
  }

  lemma ConsSplit<T>(a: seq<T>, b: seq<T>)
    requires |a| > 0
    ensures a == [a[0]] + a[1..] && a + b == [a[0]] + (a[1..] + b)
  {
  }

  /** Loading an entry that loads, then the rest: the rest's outcome, with a
      failing entry counted one further. */
  lemma LoadCons(reg: Registry, s: PluginSpec, i: Option<Candidate>,
                 specs: seq<PluginSpec>, inits: seq<Option<Candidate>>)
    requires |inits| == |specs| && EntryLoads(s, i)
    ensures var r := LoadPlugins(reg, [s] + specs, [i] + inits);
            var rest := LoadPlugins(AddPlugin(reg, i.value).value, specs, inits);
            && r.registry == rest.registry && r.logged == rest.logged
            && r.failed == (if rest.failed.None? then None else Some(rest.failed.value + 1))
  {
    assert ([s] + specs)[1..] == specs && ([i] + inits)[1..] == inits;
  }

  /** Loading two configuration files in turn, the first one loading fully, is
      loading one file holding both: the locations of both, in order, and the
      plugin entries of both, in order. */
  lemma LoadConfigSequence(locs: seq<string>, reg: Registry, l1: seq<string>, l2: seq<string>,
                           p1: seq<PluginSpec>, p2: seq<PluginSpec>,
                           i1: seq<Option<Candidate>>, i2: seq<Option<Candidate>>)
    requires |i1| == |p1| && |i2| == |p2| && LoadPlugins(reg, p1, i1).failed.None?
    ensures var first := LoadConfig(locs, reg, Config(ListOf(l1), p1), i1);
            var second := LoadConfig(first.0, first.1.registry, Config(ListOf(l2), p2), i2);
            var both := LoadConfig(locs, reg, Config(ListOf(l1 + l2), p1 + p2), i1 + i2);
            && second.0 == both.0
            && second.1.registry == both.1.registry
            && second.1.logged == both.1.logged
            && (second.1.failed.None? <==> both.1.failed.None?)
  {
    AddLocationComposes(locs, l1, l2, "");
    LoadPluginsAppend(reg, p1, p2, i1, i2);
  }

  /** What a plugin's `match(data)` does. */
  datatype MatchReply = Matches | NoMatch | MatchRaises

  /** One call dispatch makes on a plugin. */
  datatype Call = MatchCall(plugin: PluginId) | HandleCall(plugin: PluginId)

  /** The calls made, in order, and the position in the registry of the plugin
      whose `match` or `handle` raised (which ends the dispatch). */
  datatype DispatchResult = DispatchResult(calls: seq<Call>, raisedAt: Option<nat>)

  /** Whether consulting plugin `p` raises. */
  predicate Raises<D>(p: PluginId, d: D, matchOf: (PluginId, D) -> MatchReply, handleOk: (PluginId, D) -> bool) {
    matchOf(p, d) == MatchRaises || (matchOf(p, d) == Matches && !handleOk(p, d))
  }

  /** The plugins a call sequence consulted with `match`, in order. */
  function Matched(calls: seq<Call>): seq<PluginId> {
    if |calls| == 0 then []
    else (if calls[0].MatchCall? then [calls[0].plugin] else []) + Matched(calls[1..])
  }

  /** The plugins a call sequence passed the data to, in order. */
  function Handled(calls: seq<Call>): seq<PluginId> {
    if |calls| == 0 then []
    else (if calls[0].HandleCall? then [calls[0].plugin] else []) + Handled(calls[1..])
  }

  /** The registered plugins whose `match` is true, in registry order. */
  function Matching<D>(reg: Registry, d: D, matchOf: (PluginId, D) -> MatchReply): seq<PluginId> {
    if |reg| == 0 then []
    else (if matchOf(reg[0], d) == Matches then [reg[0]] else []) + Matching(reg[1..], d, matchOf)
  }

  lemma {:induction false} MatchedAppend(a: seq<Call>, b: seq<Call>)
    ensures Matched(a + b) == Matched(a) + Matched(b)
    ensures Handled(a + b) == Handled(a) + Handled(b)
  {
    if |a| > 0 {
      assert (a + b)[1..] == a[1..] + b;
      MatchedAppend(a[1..], b);
    } else {
      assert a + b == b;
    }
  }

  /** The calls made on one plugin that does not raise: `match`, then `handle` if
      it matched. */
  function FirstCalls(p: PluginId, m: MatchReply): seq<Call> {
    [MatchCall(p)] + (if m == Matches then [HandleCall(p)] else [])
  }

  lemma FirstCallsProject(p: PluginId, m: MatchReply)
    ensures Matched(FirstCalls(p, m)) == [p]
    ensures Handled(FirstCalls(p, m)) == (if m == Matches then [p] else [])
  {
    var first := FirstCalls(p, m);
    if m == Matches {
      assert first == [MatchCall(p), HandleCall(p)];
      assert first[1..] == [HandleCall(p)] && first[1..][1..] == [];
      assert Matched([HandleCall(p)]) == [] + Matched([]);
      assert Handled([HandleCall(p)]) == [p] + Handled([]);
    } else {
      assert first == [MatchCall(p)] && first[1..] == [];
    }
  }

  /** `handle(data)`: ask every registered plugin in order whether it matches and
      pass the data to each one that does; an exception from `match` or `handle`
      propagates and the remaining plugins are not consulted. */
  function Dispatch<D>(reg: Registry, d: D, matchOf: (PluginId, D) -> MatchReply,
                       handleOk: (PluginId, D) -> bool): (r: DispatchResult)
    ensures r.raisedAt.None? <==> forall k :: 0 <= k < |reg| ==> !Raises(reg[k], d, matchOf, handleOk)
    ensures r.raisedAt.Some? ==>
              && r.raisedAt.value < |reg|
              && Raises(reg[r.raisedAt.value], d, matchOf, handleOk)
              && (forall k :: 0 <= k < r.raisedAt.value ==> !Raises(reg[k], d, matchOf, handleOk))
    decreases |reg|
  {
    if |reg| == 0 then DispatchResult([], None)
    else
      var p := reg[0];
      var first := FirstCalls(p, matchOf(p, d));
      if Raises(p, d, matchOf, handleOk) then
        DispatchResult(first, Some(0))
      else
        var rest := Dispatch(reg[1..], d, matchOf, handleOk);
        match rest.raisedAt
        case None => DispatchResult(first + rest.calls, None)
        case Some(k) => DispatchResult(first + rest.calls, Some(k + 1))
  }

  /** How many plugins a dispatch consulted: all of them, or those up to and
      including the one that raised. */
  function Consulted(n: nat, r: DispatchResult): (c: nat)
    ensures r.raisedAt.Some? ==> c == r.raisedAt.value + 1
    ensures r.raisedAt.None? ==> c == n
  {
    if r.raisedAt.None? then n else r.raisedAt.value + 1
  }

  /** One step of a dispatch past a plugin that does not raise. */
  lemma DispatchStep<D>(reg: Registry, d: D, matchOf: (PluginId, D) -> MatchReply,
                        handleOk: (PluginId, D) -> bool)
    requires |reg| > 0 && !Raises(reg[0], d, matchOf, handleOk)
    ensures var r := Dispatch(reg, d, matchOf, handleOk);
            var rest := Dispatch(reg[1..], d, matchOf, handleOk);
            && r.calls == FirstCalls(reg[0], matchOf(reg[0], d)) + rest.calls
            && Consulted(|reg|, r) == Consulted(|reg| - 1, rest) + 1
  {
  }

  lemma MatchingCons<D>(p: PluginId, tail: Registry, d: D, matchOf: (PluginId, D) -> MatchReply)
    ensures Matching([p] + tail, d, matchOf) == (if matchOf(p, d) == Matches then [p] else []) + Matching(tail, d, matchOf)
  {
    assert ([p] + tail)[0] == p && ([p] + tail)[1..] == tail;
  }

  /** The calls a dispatch makes: `match` on each consulted plugin in registry
      order, and `handle` on exactly the consulted ones that match. */
  predicate CallsAsConsulted<D>(reg: Registry, d: D, matchOf: (PluginId, D) -> MatchReply,
                                handleOk: (PluginId, D) -> bool)
  {
    var r := Dispatch(reg, d, matchOf, handleOk);
    var n := Consulted(|reg|, r);
    && n <= |reg|
    && Matched(r.calls) == reg[..n]
    && Handled(r.calls) == Matching(reg[..n], d, matchOf)
  }

  lemma DispatchCallsRaisingFirst<D>(reg: Registry, d: D, matchOf: (PluginId, D) -> MatchReply,
                                     handleOk: (PluginId, D) -> bool)
    requires |reg| > 0 && Raises(reg[0], d, matchOf, handleOk)
    ensures CallsAsConsulted(reg, d, matchOf, handleOk)
  {
    var p := reg[0];
    FirstCallsProject(p, matchOf(p, d));
    assert Dispatch(reg, d, matchOf, handleOk) == DispatchResult(FirstCalls(p, matchOf(p, d)), Some(0));
    assert reg[..1] == [p] + [];
    MatchingCons(p, [], d, matchOf);
  }

  /** Putting one non-raising plugin's calls in front of a dispatch over the rest
      of the registry. */
  lemma PrependConsulted<D>(p: PluginId, tail: Registry, n: nat, rest: seq<Call>, d: D,
                            matchOf: (PluginId, D) -> MatchReply)
    requires n <= |tail|
    requires Matched(rest) == tail[..n] && Handled(rest) == Matching(tail[..n], d, matchOf)
    ensures Matched(FirstCalls(p, matchOf(p, d)) + rest) == ([p] + tail)[..n + 1]
    ensures Handled(FirstCalls(p, matchOf(p, d)) + rest) == Matching(([p] + tail)[..n + 1], d, matchOf)
  {
    FirstCallsProject(p, matchOf(p, d));
    MatchedAppend(FirstCalls(p, matchOf(p, d)), rest);
    assert ([p] + tail)[..n + 1] == [p] + tail[..n];
    MatchingCons(p, tail[..n], d, matchOf);
  }

  lemma DispatchCallsPastFirst<D>(reg: Registry, d: D, matchOf: (PluginId, D) -> MatchReply,
                                  handleOk: (PluginId, D) -> bool)
    requires |reg| > 0 && !Raises(reg[0], d, matchOf, handleOk)
    requires CallsAsConsulted(reg[1..], d, matchOf, handleOk)
    ensures CallsAsConsulted(reg, d, matchOf, handleOk)
  {
    var rest := Dispatch(reg[1..], d, matchOf, handleOk);
    DispatchStep(reg, d, matchOf, handleOk);
    PrependConsulted(reg[0], reg[1..], Consulted(|reg| - 1, rest), rest.calls, d, matchOf);
    assert [reg[0]] + reg[1..] == reg;
  }

  lemma {:induction false} DispatchCalls<D>(reg: Registry, d: D, matchOf: (PluginId, D) -> MatchReply,
                                            handleOk: (PluginId, D) -> bool)
    ensures CallsAsConsulted(reg, d, matchOf, handleOk)
    decreases |reg|
  {
    if |reg| == 0 {
      assert reg[..0] == [];
    } else if Raises(reg[0], d, matchOf, handleOk) {
      DispatchCallsRaisingFirst(reg, d, matchOf, handleOk);
    } else {
      DispatchCalls(reg[1..], d, matchOf, handleOk);
      DispatchCallsPastFirst(reg, d, matchOf, handleOk);
    }
  }

  lemma {:induction false} MatchingNoDup<D>(reg: Registry, d: D, matchOf: (PluginId, D) -> MatchReply)
    requires NoDup(reg)
    ensures NoDup(Matching(reg, d, matchOf))
    ensures forall p :: p in Matching(reg, d, matchOf) <==> p in reg && matchOf(p, d) == Matches
    decreases |reg|
  {
    if |reg| > 0 {
      MatchingNoDup(reg[1..], d, matchOf);
      assert reg == [reg[0]] + reg[1..];
    }
  }

  /** With a duplicate-free registry (which `add_plugin` guarantees) and no
      exception, every matching plugin handles the message exactly once and no
      other plugin handles it. */
  lemma HandledOnce<D>(reg: Registry, d: D, matchOf: (PluginId, D) -> MatchReply, handleOk: (PluginId, D) -> bool)
    requires NoDup(reg)
    requires Dispatch(reg, d, matchOf, handleOk).raisedAt.None?
    ensures NoDup(Handled(Dispatch(reg, d, matchOf, handleOk).calls))
    ensures forall p :: p in Handled(Dispatch(reg, d, matchOf, handleOk).calls) <==>
              p in reg && matchOf(p, d) == Matches
  {
    MatchingNoDup(reg, d, matchOf);
    DispatchCalls(reg, d, matchOf, handleOk);
    assert reg[..|reg|] == reg;
  }
}

=== FILE: scopes.dfy ===
/** The scope guard in use: Python `with` statements over tasks
    (distlog/logger/context.py, `Task.__enter__`/`__exit__`, `task`, `to`,
    `import_task`), run over one logging-context stack.

    A program is a list of statements. Statements that act on a task (bind,
    success, export) stand for method calls on a variable bound by an enclosing
    `with ... as t`, or held by the code around the program; the statement names
    that task by its position on the stack (0 is the bottom), which stays the
    same while the task is open. An exception abandons the rest of its block,
    runs the `__exit__` of every enclosing scope and leaves the program. The
    interpreter takes the reading of `get_foreign_task`/`import_task` to run:
    as written or corrected. */
module Scopes {
  import opened Common
  import opened Context

  /** How the scope of a `with` statement is obtained. */
  datatype Opener =
    | NewTopLevel(uuid: string)   // task(...), with uuid4() supplied as a parameter
    | NewChild                    // to(...)
    | Imported(token: string)     // import_task(token, ...)

  datatype Stmt =
    | Log(level: nat, loggerLevel: nat, msg: string, args: seq<Value>)
                                  // a logging call through a logger with that effective level
    | BindData(at: nat, data: map<string, Value>)              // t.bind(**data)
    | SetSuccess(at: nat, msg: string, args: seq<Value>)       // t.success(msg, *args)
    | ExportTask(at: nat)                                      // t.get_foreign_task()
    | Raise                                                    // the body raises
    | With(opener: Opener, msg: string, args: seq<Value>, data: map<string, Value>,
           body: seq<Stmt>)

  /** Statements that act on a task. */
  predicate NeedsScope(s: Stmt) {
    s.BindData? || s.SetSuccess? || s.ExportTask?
  }

  /** Every statement that acts on a task names one of the `depth` tasks open
      around it (a `with` body sees one more). */
  predicate Scoped(s: Stmt, depth: nat)
    decreases s
  {
    match s
    case BindData(at, _) => at < depth
    case SetSuccess(at, _, _) => at < depth
    case ExportTask(at) => at < depth
    case With(_, _, _, _, body) => forall i :: 0 <= i < |body| ==> Scoped(body[i], depth + 1)
    case _ => true
  }

  /** Statement `s` binds data on, or sets the success message of, the task at
      position `k`. */
  predicate Writes(s: Stmt, k: nat)
    decreases s
  {
    match s
    case BindData(at, _) => at == k
    case SetSuccess(at, _, _) => at == k
    case With(_, _, _, _, body) => exists i :: 0 <= i < |body| && Writes(body[i], k)
    case _ => false
  }

  datatype Exc = BodyRaised | ScopeFailure(error: ScopeError)

  /** Final stack, the records produced, the tokens exported, and the exception
      that left the program, if any. */
  datatype Outcome = Outcome(stack: Stack, events: seq<Event>, tokens: seq<string>,
                             raised: Option<Exc>)

  /** The two stacks hold the same tasks (same local ids and parent links); only
      counters, bound data and deferred messages may have moved, and the
      counters never go down. */
  ghost predicate SameScopes(st: Stack, st': Stack) {
    && |st'| == |st|
    && (forall i :: 0 <= i < |st| ==>
          st'[i].localId == st[i].localId && st'[i].ancestors == st[i].ancestors)
    && (forall i :: 0 <= i < |st| ==>
          st'[i].counter >= st[i].counter && st'[i].tasks >= st[i].tasks)
  }

  /** The bound data and the deferred success message agree. */
  ghost predicate SameSettings(a: Task, b: Task) {
    a.data == b.data && a.smsg == b.smsg && a.sargs == b.sargs
  }

  lemma SameScopesTransitive(a: Stack, b: Stack, c: Stack)
    requires SameScopes(a, b) && SameScopes(b, c)
    ensures SameScopes(a, c)
  {
  }

  lemma SameScopesKeepsLinks(st: Stack, st': Stack)
    requires SameScopes(st, st') && WellLinked(st)
    ensures WellLinked(st')
  {
    forall i | 0 <= i < |st'|
      ensures st'[i].ancestors == LocalIds(st'[..i])
    {
      assert LocalIds(st'[..i]) == LocalIds(st[..i]);
    }
  }

  /** The task of a `with` statement, before it is entered. */
  function Open(code: Code, st: Stack, op: Opener, msg: string, args: seq<Value>,
                data: map<string, Value>): (r: Result<(Stack, Task), ScopeError>)
    ensures r.Err? <==> op.NewChild? && |st| == 0
    ensures r.Ok? ==> SameScopes(st, r.value.0) && r.value.1.ancestors == []
    ensures r.Ok? ==> r.value.1.msg == msg && r.value.1.args == args && r.value.1.data == data
    ensures r.Ok? ==> forall i :: 0 <= i < |st| ==> SameSettings(st[i], r.value.0[i])
    ensures r.Ok? && op.Imported? ==>
              r.value.1.localId == (if code.Corrected? then Named(op.token) else BuiltinIdFunction)
  {
    match op
    case NewTopLevel(u) => Ok((st, TopLevelTask(u, msg, args, data)))
    case NewChild =>
      if |st| > 0 then ToKeepsScopes(st, msg, args, data); To(st, msg, args, data)
      else To(st, msg, args, data)
    case Imported(tok) => Ok((st, Import(code, tok, msg, args, data)))
  }

  /** `to()` only bumps the top's child counter and hands out a task without a
      parent link yet. */
  lemma ToKeepsScopes(st: Stack, msg: string, args: seq<Value>, data: map<string, Value>)
    requires |st| > 0
    ensures To(st, msg, args, data).Ok?
    ensures SameScopes(st, To(st, msg, args, data).value.0)
    ensures forall i :: 0 <= i < |st| ==> SameSettings(st[i], To(st, msg, args, data).value.0[i])
    ensures To(st, msg, args, data).value.1.ancestors == []
  {
    var st' := To(st, msg, args, data).value.0;
    var n := |st| - 1;
    forall i | 0 <= i < |st|
      ensures st'[i].localId == st[i].localId && st'[i].ancestors == st[i].ancestors
      ensures st'[i].counter >= st[i].counter && st'[i].tasks >= st[i].tasks
      ensures SameSettings(st[i], st'[i])
    {
      if i < n {
        assert st'[i] == st'[..n][i] == st[..n][i] == st[i];
      }
    }
  }

  lemma LogCallKeepsScopes(st: Stack, level: nat, msg: string, args: seq<Value>,
                           excInfo: bool, threshold: nat)
    ensures var st' := LogCall(st, level, msg, args, excInfo, threshold).0;
            && SameScopes(st, st')
            && forall i :: 0 <= i < |st| ==> SameSettings(st[i], st'[i])
  {
    var st' := LogCall(st, level, msg, args, excInfo, threshold).0;
    if level >= threshold && |st| > 0 {
      forall i | 0 <= i < |st|
        ensures st'[i].localId == st[i].localId && st'[i].ancestors == st[i].ancestors
        ensures st'[i].counter >= st[i].counter && st'[i].tasks >= st[i].tasks
        ensures SameSettings(st[i], st'[i])
      {
        if i < |st| - 1 {
          assert st'[i] == st'[..|st| - 1][i];
        }
      }
    }
  }

  /** A statement acting on the task at position `s.at`; every other task is
      left as it was. */
  function OnScope(code: Code, st: Stack, s: Stmt): (r: Outcome)
    requires NeedsScope(s) && s.at < |st|
    ensures SameScopes(st, r.stack) && r.raised == None && r.events == []
    ensures forall i :: 0 <= i < |st| && i != s.at ==> r.stack[i] == st[i]
    ensures !s.ExportTask? ==> r.tokens == []
    ensures s.ExportTask? ==>
              && r.tokens == [ExportPrefix(code, st[s.at]) + "/" + NatToString(st[s.at].tasks + 1)]
              && r.stack[s.at].tasks == st[s.at].tasks + 1
              && SameSettings(st[s.at], r.stack[s.at])
  {
    var t := st[s.at];
    var (t', tokens) :=
      match s
      case BindData(_, data) => (Bind(t, data), [])
      case SetSuccess(_, msg, args) => (Success(t, msg, args), [])
      case ExportTask(_) => var (t', tok) := Export(code, t); (t', [tok]);
    Outcome(st[s.at := t'], [], tokens, None)
  }

  /** One statement. `__enter__` and `__exit__` log through the root logger
      (the module-level `logging.info` and `logging.exception`), whose effective
      level is `rootLevel`; a logging call in a body goes through its own logger,
      whose effective level the statement carries. */
  function RunStmt(code: Code, st: Stack, s: Stmt, rootLevel: nat): (r: Outcome)
    requires Scoped(s, |st|)
    ensures SameScopes(st, r.stack)
    ensures s.Log? ==> |r.events| == (if s.level >= s.loggerLevel then 1 else 0)
    ensures s.Raise? ==> r.raised == Some(BodyRaised)
    ensures s.Log? || NeedsScope(s) ==> r.raised == None
    decreases s, 1
  {
    match s
    case Log(level, loggerLevel, msg, args) =>
      var (st1, evs) := LogCall(st, level, msg, args, false, loggerLevel);
      LogCallKeepsScopes(st, level, msg, args, false, loggerLevel);
      Outcome(st1, evs, [], None)
    case Raise =>
      Outcome(st, [], [], Some(BodyRaised))
    case With(_, _, _, _, _) =>
      RunWith(code, st, s, rootLevel)
    case _ =>
      OnScope(code, st, s)
  }

  /** `with opener(msg, *args, **data) as t: body`: open the task (which may raise),
      enter, run the body, and exit with the body's exception, which is passed on.
      Afterwards the stack holds the same tasks as right after opening. */
  function RunWith(code: Code, st: Stack, s: Stmt, rootLevel: nat): (r: Outcome)
    requires s.With? && Scoped(s, |st|)
    ensures SameScopes(st, r.stack)
    ensures Open(code, st, s.opener, s.msg, s.args, s.data).Err? ==>
              r == Outcome(st, [], [], Some(ScopeFailure(Open(code, st, s.opener, s.msg, s.args, s.data).error)))
    ensures Open(code, st, s.opener, s.msg, s.args, s.data).Ok? ==>
              SameScopes(Open(code, st, s.opener, s.msg, s.args, s.data).value.0, r.stack)
    decreases s, 0
  {
    match Open(code, st, s.opener, s.msg, s.args, s.data)
    case Err(e) => Outcome(st, [], [], Some(ScopeFailure(e)))
    case Ok((st0, t)) =>
      var (st1, opening) := Enter(st0, t, rootLevel);
      var o := RunSeq(code, st1, s.body, rootLevel);
      var x := Exit(o.stack, o.stack[|o.stack| - 1], o.raised.Some?, rootLevel);
      WithRestoresDepth(st0, st1, o.stack, x.stack);
      SameScopesTransitive(st, st0, x.stack);
      Outcome(x.stack, opening + o.events + x.events, o.tokens, o.raised)
  }

  /** One `with` block whose task was made: enter, body, exit with the body's
      exception; the records are the opening, the body's and the closing ones. */
  lemma WithUnfolds(code: Code, st: Stack, s: Stmt, rootLevel: nat, st0: Stack, t: Task, o: Outcome)
    requires s.With? && Scoped(s, |st|)
    requires Open(code, st, s.opener, s.msg, s.args, s.data) == Ok((st0, t))
    requires o == RunSeq(code, Enter(st0, t, rootLevel).0, s.body, rootLevel)
    ensures |o.stack| == |st| + 1
    ensures var x := Exit(o.stack, o.stack[|st|], o.raised.Some?, rootLevel);
            var r := RunStmt(code, st, s, rootLevel);
            && r.stack == x.stack
            && r.events == Enter(st0, t, rootLevel).1 + o.events + x.events
            && r.tokens == o.tokens
            && r.raised == o.raised
  {
    assert RunStmt(code, st, s, rootLevel) == RunWith(code, st, s, rootLevel);
  }

  lemma WithRestoresDepth(st0: Stack, st1: Stack, body: Stack, after: Stack)
    requires |st1| == |st0| + 1 && st1[..|st0|] == st0
    requires SameScopes(st1, body)
    requires after == body[..|st0|]
    ensures SameScopes(st0, after)
  {
  }

  /** Runs a block; the stack depth is the same on every way out, normal or
      raising, and every scope keeps its identity and parent link. */
  function RunSeq(code: Code, st: Stack, ss: seq<Stmt>, rootLevel: nat): (r: Outcome)
    requires forall i :: 0 <= i < |ss| ==> Scoped(ss[i], |st|)
    ensures SameScopes(st, r.stack)
    ensures |ss| == 0 ==> r.raised == None
    decreases ss, 2
  {
    if |ss| == 0 then Outcome(st, [], [], None)
    else
      var o1 := RunStmt(code, st, ss[0], rootLevel);
      if o1.raised.Some? then o1
      else
        var o2 := RunSeq(code, o1.stack, ss[1..], rootLevel);
        SameScopesTransitive(st, o1.stack, o2.stack);
        Outcome(o2.stack, o1.events + o2.events, o1.tokens + o2.tokens, o2.raised)
  }

  /** Running a program keeps the parent links consistent with the stack. */
  lemma RunKeepsLinks(code: Code, st: Stack, ss: seq<Stmt>, rootLevel: nat)
    requires forall i :: 0 <= i < |ss| ==> Scoped(ss[i], |st|)
    requires WellLinked(st)
    ensures WellLinked(RunSeq(code, st, ss, rootLevel).stack)
  {
    SameScopesKeepsLinks(st, RunSeq(code, st, ss, rootLevel).stack);
  }

  /** A task's bound data and success message change only through statements
      that name it: logging, opening and closing scopes, exporting and raising
      leave them alone. */
  lemma RunStmtFrame(code: Code, st: Stack, s: Stmt, rootLevel: nat, k: nat)
    requires Scoped(s, |st|) && k < |st| && !Writes(s, k)
    ensures SameSettings(st[k], RunStmt(code, st, s, rootLevel).stack[k])
    decreases s, 1
  {
    match s
    case Log(level, loggerLevel, msg, args) =>
      LogCallKeepsScopes(st, level, msg, args, false, loggerLevel);
    case With(_, _, _, _, _) =>
      WithFrame(code, st, s, rootLevel, k);
    case Raise =>
    case _ =>
      assert RunStmt(code, st, s, rootLevel) == OnScope(code, st, s);
  }

  lemma WithFrame(code: Code, st: Stack, s: Stmt, rootLevel: nat, k: nat)
    requires s.With? && Scoped(s, |st|) && k < |st| && !Writes(s, k)
    ensures SameSettings(st[k], RunStmt(code, st, s, rootLevel).stack[k])
    decreases s, 0
  {
    var made := Open(code, st, s.opener, s.msg, s.args, s.data);
    if made.Ok? {
      var (st0, t) := made.value;
      var st1 := Enter(st0, t, rootLevel).0;
      EnterKeepsBelow(st0, t, rootLevel, k);
      assert forall i :: 0 <= i < |s.body| ==> Scoped(s.body[i], |st1|) && !Writes(s.body[i], k);
      RunSeqFrame(code, st1, s.body, rootLevel, k);
      var o := RunSeq(code, st1, s.body, rootLevel);
      WithUnfolds(code, st, s, rootLevel, st0, t, o);
      ExitKeepsBelow(o.stack, o.stack[|st|], o.raised.Some?, rootLevel, k);
    }
  }

  lemma EnterKeepsBelow(st: Stack, t: Task, rootLevel: nat, k: nat)
    requires k < |st|
    ensures var st' := Enter(st, t, rootLevel).0;
            |st'| == |st| + 1 && st'[k] == st[k]
  {
    var st' := Enter(st, t, rootLevel).0;
    assert st'[k] == st'[..|st|][k];
  }

  lemma ExitKeepsBelow(st: Stack, self: Task, failed: bool, rootLevel: nat, k: nat)
    requires k + 1 < |st|
    ensures Exit(st, self, failed, rootLevel).stack[k] == st[k]
  {
  }

  lemma RunSeqFrame(code: Code, st: Stack, ss: seq<Stmt>, rootLevel: nat, k: nat)
    requires forall i :: 0 <= i < |ss| ==> Scoped(ss[i], |st|)
    requires k < |st| && forall i :: 0 <= i < |ss| ==> !Writes(ss[i], k)
    ensures SameSettings(st[k], RunSeq(code, st, ss, rootLevel).stack[k])
    decreases ss, 2
  {
    if |ss| > 0 {
      RunStmtFrame(code, st, ss[0], rootLevel, k);
      var o1 := RunStmt(code, st, ss[0], rootLevel);
      if o1.raised.None? {
        RunSeqFrame(code, o1.stack, ss[1..], rootLevel, k);
      }
    }
  }

  /** Entering a scope with logging at INFO or below logs exactly the task's
      message. */
  lemma OpeningEvent(st: Stack, t: Task, rootLevel: nat)
    requires rootLevel <= INFO
    ensures var ev := Enter(st, t, rootLevel).1;
            |ev| == 1 && ev[0].level == INFO && ev[0].msg == t.msg
  {
    var ev := Enter(st, t, rootLevel).1;
    assert ev[0] in ev;
  }

  /** Leaving a scope that failed, or that has a success message, logs exactly one
      event and pops the task. */
  lemma ClosingEvent(st: Stack, self: Task, failed: bool, rootLevel: nat)
    requires rootLevel <= INFO && |st| > 0 && (failed || HasSuccess(self))
    ensures var x := Exit(st, self, failed, rootLevel);
            && |x.events| == 1 && x.stack == st[..|st| - 1]
            && (failed ==> x.events[0].level == ERROR && x.events[0].msg == "FAILED " + self.msg)
            && (!failed ==> x.events[0] == Event(INFO, self.smsg.value, self.sargs.GetOr([]), false, x.events[0].context))
  {
    var x := Exit(st, self, failed, rootLevel);
    assert x.events[0] in x.events;
  }

  /** Any `with` whose task opened, with logging at INFO or below: its records
      are one INFO record with the scope's message, then the body's records,
      then at most one closing record. The closing record is there exactly when
      the body raised or left a success message; after a raise it is the
      "FAILED" ERROR record, and the exception propagates. */
  lemma WithLogsOpeningAndAtMostOneClosing(code: Code, st: Stack, s: Stmt, rootLevel: nat)
    requires s.With? && Scoped(s, |st|) && rootLevel <= INFO
    requires Open(code, st, s.opener, s.msg, s.args, s.data).Ok?
    ensures var (st0, t) := Open(code, st, s.opener, s.msg, s.args, s.data).value;
            var o := RunSeq(code, Enter(st0, t, rootLevel).0, s.body, rootLevel);
            var r := RunStmt(code, st, s, rootLevel);
            var self := o.stack[|st|];
            && |o.stack| == |st| + 1
            && |r.events| == 1 + |o.events| + (if o.raised.Some? || HasSuccess(self) then 1 else 0)
            && r.events[0].level == INFO && r.events[0].msg == s.msg
            && r.events[1..1 + |o.events|] == o.events
            && (o.raised.Some? ==> r.events[|r.events| - 1].level == ERROR
                                   && r.events[|r.events| - 1].msg == "FAILED " + self.msg)
            && r.raised == o.raised
  {
    var (st0, t) := Open(code, st, s.opener, s.msg, s.args, s.data).value;
    var e := Enter(st0, t, rootLevel);
    var o := RunSeq(code, e.0, s.body, rootLevel);
    WithUnfolds(code, st, s, rootLevel, st0, t, o);
    OpeningEvent(st0, t, rootLevel);
    var x := Exit(o.stack, o.stack[|st|], o.raised.Some?, rootLevel);
    if o.raised.Some? {
      assert x.events[0] in x.events;
    }
  }

  /** A body that only raises: nothing logged, the stack untouched. */
  lemma RaisingBody(code: Code, st: Stack, rootLevel: nat)
    ensures var o := RunSeq(code, st, [Raise], rootLevel);
            o.stack == st && o.events == [] && o.raised == Some(BodyRaised)
  {
    assert RunStmt(code, st, Raise, rootLevel) == Outcome(st, [], [], Some(BodyRaised));
  }

  /** An empty body does nothing. */
  lemma EmptyBody(code: Code, st: Stack, rootLevel: nat)
    ensures var o := RunSeq(code, st, [], rootLevel);
            o.stack == st && o.events == [] && o.raised == None
  {
  }

  /** What a top-level scope whose body raises amounts to. */
  lemma FailingScopeOutcome(code: Code, st: Stack, u: string, msg: string, args: seq<Value>,
                            data: map<string, Value>, rootLevel: nat)
    ensures var e := Enter(st, TopLevelTask(u, msg, args, data), rootLevel);
            var x := Exit(e.0, e.0[|e.0| - 1], true, rootLevel);
            var o := RunStmt(code, st, With(NewTopLevel(u), msg, args, data, [Raise]), rootLevel);
            o.stack == x.stack && o.events == e.1 + x.events && o.raised == Some(BodyRaised)
  {
    var s := With(NewTopLevel(u), msg, args, data, [Raise]);
    var t := TopLevelTask(u, msg, args, data);
    assert Open(code, st, s.opener, s.msg, s.args, s.data) == Ok((st, t));
    var e := Enter(st, t, rootLevel);
    RaisingBody(code, e.0, rootLevel);
    WithUnfolds(code, st, s, rootLevel, st, t, RunSeq(code, e.0, s.body, rootLevel));
    assert e.1 + [] == e.1;
  }

  /** A failing body: the opening event, then exactly one "FAILED" event, the
      stack exactly as before, and the exception passed on unchanged. */
  lemma FailingScopeLogsAndPropagates(code: Code, st: Stack, u: string, msg: string, args: seq<Value>,
                                      data: map<string, Value>, rootLevel: nat)
    requires rootLevel <= INFO
    ensures var o := RunStmt(code, st, With(NewTopLevel(u), msg, args, data, [Raise]), rootLevel);
            && o.raised == Some(BodyRaised)
            && o.stack == st
            && |o.events| == 2
            && o.events[0].level == INFO && o.events[0].msg == msg
            && o.events[1].level == ERROR && o.events[1].msg == "FAILED " + msg
  {
    var t := TopLevelTask(u, msg, args, data);
    var e := Enter(st, t, rootLevel);
    FailingScopeOutcome(code, st, u, msg, args, data, rootLevel);
    OpeningEvent(st, t, rootLevel);
    ClosingEvent(e.0, e.0[|e.0| - 1], true, rootLevel);
  }

  /** What a top-level scope whose body calls success() amounts to. */
  lemma SucceedingScopeOutcome(code: Code, st: Stack, u: string, msg: string, args: seq<Value>,
                               data: map<string, Value>, smsg: string, sargs: seq<Value>,
                               rootLevel: nat)
    ensures var e := Enter(st, TopLevelTask(u, msg, args, data), rootLevel);
            var o := RunSeq(code, e.0, [SetSuccess(|st|, smsg, sargs)], rootLevel);
            var x := Exit(o.stack, o.stack[|st|], false, rootLevel);
            var r := RunStmt(code, st, With(NewTopLevel(u), msg, args, data, [SetSuccess(|st|, smsg, sargs)]), rootLevel);
            r.stack == x.stack && r.events == e.1 + x.events && r.raised == None
  {
    var s := With(NewTopLevel(u), msg, args, data, [SetSuccess(|st|, smsg, sargs)]);
    var t := TopLevelTask(u, msg, args, data);
    assert Open(code, st, s.opener, s.msg, s.args, s.data) == Ok((st, t));
    var e := Enter(st, t, rootLevel);
    SuccessBody(code, e.0, smsg, sargs, rootLevel);
    WithUnfolds(code, st, s, rootLevel, st, t, RunSeq(code, e.0, s.body, rootLevel));
    assert e.1 + [] == e.1;
  }


  /** A body that calls success() and finishes: the opening event and exactly one
      closing event with the success message. */
  lemma SucceedingScopeLogsSuccess(code: Code, st: Stack, u: string, msg: string, args: seq<Value>,
                                   data: map<string, Value>, smsg: string, sargs: seq<Value>,
                                   rootLevel: nat)
    requires rootLevel <= INFO && smsg != ""
    ensures var o := RunStmt(code, st, With(NewTopLevel(u), msg, args, data,
                                      [SetSuccess(|st|, smsg, sargs)]), rootLevel);
            && o.raised == None
            && o.stack == st
            && |o.events| == 2
            && o.events[0].msg == msg
            && o.events[1] == Event(INFO, smsg, sargs, false, o.events[1].context)
  {
    var t := TopLevelTask(u, msg, args, data);
    var e := Enter(st, t, rootLevel);
    var o := RunSeq(code, e.0, [SetSuccess(|st|, smsg, sargs)], rootLevel);
    var x := Exit(o.stack, o.stack[|st|], false, rootLevel);
    SucceedingScopeOutcome(code, st, u, msg, args, data, smsg, sargs, rootLevel);
    SuccessfulClose(code, st, t, smsg, sargs, rootLevel);
    OpeningEvent(st, t, rootLevel);
    var r := RunStmt(code, st, With(NewTopLevel(u), msg, args, data, [SetSuccess(|st|, smsg, sargs)]), rootLevel);
    assert r.events == e.1 + x.events;
    assert r.events[0] == e.1[0] && r.events[1] == x.events[0];
  }

  /** Closing a scope whose body only called success() pops it and logs the
      success message. */
  lemma SuccessfulClose(code: Code, st: Stack, t: Task, smsg: string, sargs: seq<Value>,
                        rootLevel: nat)
    requires rootLevel <= INFO && smsg != ""
    ensures var e := Enter(st, t, rootLevel);
            var o := RunSeq(code, e.0, [SetSuccess(|st|, smsg, sargs)], rootLevel);
            var x := Exit(o.stack, o.stack[|st|], false, rootLevel);
            && x.stack == st && |x.events| == 1
            && x.events[0] == Event(INFO, smsg, sargs, false, x.events[0].context)
  {
    var e := Enter(st, t, rootLevel);
    var o := RunSeq(code, e.0, [SetSuccess(|st|, smsg, sargs)], rootLevel);
    var self := o.stack[|st|];
    SuccessBody(code, e.0, smsg, sargs, rootLevel);
    assert self.smsg == Some(smsg) && self.sargs == Some(sargs);
    ClosingEvent(o.stack, self, false, rootLevel);
    assert o.stack[..|st|] == e.0[..|st|] == st;
  }

  /** A body that only calls success() logs nothing and records the message on
      the current task. */
  lemma SuccessBody(code: Code, st: Stack, smsg: string, sargs: seq<Value>, rootLevel: nat)
    requires |st| > 0
    ensures var o := RunSeq(code, st, [SetSuccess(|st| - 1, smsg, sargs)], rootLevel);
            && o.raised == None && o.events == [] && |o.stack| == |st|
            && o.stack[|st| - 1].smsg == Some(smsg) && o.stack[|st| - 1].sargs == Some(sargs)
            && o.stack[..|st| - 1] == st[..|st| - 1]
  {
    var o1 := RunStmt(code, st, SetSuccess(|st| - 1, smsg, sargs), rootLevel);
    assert o1 == OnScope(code, st, SetSuccess(|st| - 1, smsg, sargs));
    assert [SetSuccess(|st| - 1, smsg, sargs)][1..] == [];
    assert RunSeq(code, o1.stack, [], rootLevel) == Outcome(o1.stack, [], [], None);
  }

  /** What a top-level scope with an empty body amounts to. */
  lemma PlainScopeOutcome(code: Code, st: Stack, u: string, msg: string, args: seq<Value>,
                          data: map<string, Value>, rootLevel: nat)
    ensures var e := Enter(st, TopLevelTask(u, msg, args, data), rootLevel);
            var x := Exit(e.0, e.0[|e.0| - 1], false, rootLevel);
            var o := RunStmt(code, st, With(NewTopLevel(u), msg, args, data, []), rootLevel);
            o.stack == x.stack && o.events == e.1 + x.events && o.raised == None
  {
    var s := With(NewTopLevel(u), msg, args, data, []);
    var t := TopLevelTask(u, msg, args, data);
    assert Open(code, st, s.opener, s.msg, s.args, s.data) == Ok((st, t));
    var e := Enter(st, t, rootLevel);
    EmptyBody(code, e.0, rootLevel);
    WithUnfolds(code, st, s, rootLevel, st, t, RunSeq(code, e.0, s.body, rootLevel));
    assert e.1 + [] == e.1;
  }

  /** The guard and the body log through different loggers: with the root logger
      at WARNING and the body's logger at DEBUG, a top-level scope whose body
      logs one INFO record produces that record and nothing else. */
  lemma QuietRootKeepsBodyRecords(code: Code, st: Stack, u: string, msg: string, args: seq<Value>,
                                  data: map<string, Value>, m: string, a: seq<Value>)
    ensures var s := With(NewTopLevel(u), msg, args, data, [Log(INFO, DEBUG, m, a)]);
            var r := RunStmt(code, st, s, WARNING);
            && |r.events| == 1 && r.events[0].level == INFO && r.events[0].msg == m
            && r.raised == None && |r.stack| == |st|
  {
    var s := With(NewTopLevel(u), msg, args, data, [Log(INFO, DEBUG, m, a)]);
    var t := TopLevelTask(u, msg, args, data);
    assert Open(code, st, s.opener, s.msg, s.args, s.data) == Ok((st, t));
    var e := Enter(st, t, WARNING);
    var o := RunSeq(code, e.0, s.body, WARNING);
    LoggingBody(code, e.0, INFO, DEBUG, m, a, WARNING);
    WithUnfolds(code, st, s, WARNING, st, t, o);
    assert !HasSuccess(o.stack[|st|]);
  }

  /** A body of one enabled logging call: one record, no exception, and the task
      settings (in particular the success message) untouched. */
  lemma LoggingBody(code: Code, st: Stack, level: nat, loggerLevel: nat, m: string, a: seq<Value>,
                    rootLevel: nat)
    requires |st| > 0 && level >= loggerLevel
    ensures var o := RunSeq(code, st, [Log(level, loggerLevel, m, a)], rootLevel);
            && |o.events| == 1 && o.events[0].level == level && o.events[0].msg == m
            && o.raised == None && |o.stack| == |st|
            && SameSettings(st[|st| - 1], o.stack[|st| - 1])
  {
    var o1 := RunStmt(code, st, Log(level, loggerLevel, m, a), rootLevel);
    LogCallKeepsScopes(st, level, m, a, false, loggerLevel);
    assert RunSeq(code, st, [Log(level, loggerLevel, m, a)], rootLevel) == RunSeq(code, o1.stack, [], rootLevel).(events := o1.events + []);
    assert o1.events[0] in o1.events;
  }

  /** A scope that neither fails nor calls success() emits only its opening event. */
  lemma PlainScopeLogsOnlyOpening(code: Code, st: Stack, u: string, msg: string, args: seq<Value>,
                                  data: map<string, Value>, rootLevel: nat)
    requires rootLevel <= INFO
    ensures var o := RunStmt(code, st, With(NewTopLevel(u), msg, args, data, []), rootLevel);
            o.raised == None && o.stack == st && |o.events| == 1 && o.events[0].msg == msg
  {
    var t := TopLevelTask(u, msg, args, data);
    var e := Enter(st, t, rootLevel);
    PlainScopeOutcome(code, st, u, msg, args, data, rootLevel);
    OpeningEvent(st, t, rootLevel);
    assert !HasSuccess(e.0[|e.0| - 1]);
    assert e.1 + [] == e.1;
  }

  /** `with to(...)` with no task active raises before anything is logged. */
  lemma ChildWithoutParentRaises(code: Code, msg: string, args: seq<Value>, data: map<string, Value>,
                                 body: seq<Stmt>, rootLevel: nat)
    requires forall i :: 0 <= i < |body| ==> Scoped(body[i], 1)
    ensures var o := RunStmt(code, [], With(NewChild, msg, args, data, body), rootLevel);
            o.raised == Some(ScopeFailure(NoActiveTask)) && o.events == [] && o.stack == []
  {
  }
}
